=== FILE: README.md ===
# Iceberg Spark/Trino compatibility fixtures, in Dafny

The Iceberg compatibility product tests of Trino write tables through one
engine (Spark or Trino) and read them through the other. Around the live
queries sit a few pure helpers whose correctness the tests silently rely on.
This project models those helpers and proves what the tests assume of them:

- **String literals** (module `Literals`, `literals.dfy`):
  - `escapeTrinoString` doubles every apostrophe. This is the quote-doubling
    rule for a character string literal in ISO/IEC 9075-2, Subclause 5.3.
  - `escapeSparkString` first doubles every backslash and then puts a
    backslash before every apostrophe.
  - Neither engine's literal lexer is part of the repository, so each is
    modelled as `Scan`. It reads a literal body up to its closing
    apostrophe and yields the denoted string and the text after the literal.
  - Proved:
    - the round trip: in Spark through any following text, in Trino through
      any following text that does not start with an apostrophe (an
      apostrophe there would pair with the closing one);
    - injectivity;
    - that an escaped body cannot close its literal early;
    - exact output length, and no change to strings without reserved characters;
    - that the Spark escaper breaks on every string with an apostrophe if its
      two replacements are swapped or the apostrophe replacement is dropped;
    - that without the backslash doubling, Spark misreads the corpus value
      `with\backslash`, while `\%` and `\_` read back as themselves in
      Spark, so not every string needs the doubling.
- **Partition fixtures** (module `PartitionValues`, `partition_values.dfy`):
  - the corpus `SPECIAL_CHARACTER_VALUES`;
  - the `VALUES` lists `TRINO_INSERTED_PARTITION_VALUES` and
    `SPARK_INSERTED_PARTITION_VALUES`, built as `(i, '<escaped value>')`
    tuples joined by `", "`;
  - `EXPECTED_PARTITION_VALUES`, which holds `(int) i` and the raw value.
  - `ParseValues` models how an engine reads such a list back. There is no
    separate partition-value encoding; the partition value travels as the
    escaped literal inside the tuple.
  - Proved:
    - every inserted list reads back as exactly the expected rows;
    - each equality predicate of `assertSelectsOnSpecialCharacters` counts
      exactly one row, because the corpus has no repeated value.
- **Test matrix** (module `TestMatrix`, `test_matrix.dfy`):
  - `StorageFormat.isSupportedInTrino`;
  - the `storageFormats` and `unsupportedStorageFormats` data providers;
  - `testSparkReadingTrinoDataDataProvider`, the format-major cross product
    of the supported formats with the three `CreateMode`s.
- **Subscripts** (module `Subscripts`, `subscripts.dfy`):
  - Spark indexes arrays from 0 and Trino from 1. Both look maps up by key
    and structs by field name.
  - `ToTrinoPath` raises every array subscript by one.
  - Proved:
    - a Spark path and its translation select the same element of every
      value, through any nesting;
    - the concrete queries of the composite and nested-data tests are such
      translations, and select the rows the tests expect from the documents
      they insert.

`wrappers.dfy` holds the `Option` type used for everything an engine
rejects.

All source paths below are relative to the repository root. Every source
cell cites `testing/trino-product-tests/src/main/java/io/trino/tests/product/iceberg/TestIcebergSparkCompatibility.java`.

## Model

| member | source | states |
|---|---|---|
| Literals.ReplaceChar | testing/trino-product-tests/src/main/java/io/trino/tests/product/iceberg/TestIcebergSparkCompatibility.java:720-728 | `String.replace` of a character maps a single target character to the replacement and any other single character to itself; no occurrence survives unless the replacement brings it back, and a string without the target comes back unchanged (with `ReplaceCharAppend`, this fixes the result on every string) |
| Literals.ReplaceCharLength | testing/trino-product-tests/src/main/java/io/trino/tests/product/iceberg/TestIcebergSparkCompatibility.java:720-728 | `String.replace` of one character by two characters adds exactly one character per occurrence, and leaves a string without the character unchanged |
| Literals.ReplaceCharAppend | testing/trino-product-tests/src/main/java/io/trino/tests/product/iceberg/TestIcebergSparkCompatibility.java:720-728 | Replacing a character in a concatenation is the concatenation of the replaced parts |
| Literals.EscapeTrino | testing/trino-product-tests/src/main/java/io/trino/tests/product/iceberg/TestIcebergSparkCompatibility.java:725-728 | `escapeTrinoString(s)` is one character longer than `s` per apostrophe |
| Literals.EscapeSpark | testing/trino-product-tests/src/main/java/io/trino/tests/product/iceberg/TestIcebergSparkCompatibility.java:720-723 | `escapeSparkString(s)` equals escaping each character on its own: `\` becomes `\\`, `'` becomes `\'`, every other character stays |
| Literals.TrinoEscapeMinimal | testing/trino-product-tests/src/main/java/io/trino/tests/product/iceberg/TestIcebergSparkCompatibility.java:725-728 | `escapeTrinoString(s)` is `|s|` plus the number of apostrophes long, and equals `s` exactly when `s` has no apostrophe |
| Literals.SparkEscapeMinimal | testing/trino-product-tests/src/main/java/io/trino/tests/product/iceberg/TestIcebergSparkCompatibility.java:720-723 | `escapeSparkString(s)` is `|s|` plus the number of backslashes and apostrophes long, and equals `s` exactly when `s` has neither |
| Literals.EscapeSparkIsPerChar | testing/trino-product-tests/src/main/java/io/trino/tests/product/iceberg/TestIcebergSparkCompatibility.java:720-723 | The two successive whole-string replacements equal escaping each character on its own (`\` to `\\`, `'` to `\'`) |
| Literals.ScanTrinoSuffix | testing/trino-product-tests/src/main/java/io/trino/tests/product/iceberg/TestIcebergSparkCompatibility.java:641-647 | Trino's lexer stops right after the closing apostrophe, leaves the following text untouched, and denotes fewer characters than it consumed |
| Literals.ScanSparkSuffix | testing/trino-product-tests/src/main/java/io/trino/tests/product/iceberg/TestIcebergSparkCompatibility.java:641-647 | Spark's lexer stops right after an apostrophe, leaves the following text untouched, and denotes fewer characters than it consumed |
| Literals.ScanSparkClosesUnescaped | testing/trino-product-tests/src/main/java/io/trino/tests/product/iceberg/TestIcebergSparkCompatibility.java:641-647 | The apostrophe that closes a Spark literal is unescaped: an even run of backslashes stands right before it |
| Literals.ScanTrinoEscaped | testing/trino-product-tests/src/main/java/io/trino/tests/product/iceberg/TestIcebergSparkCompatibility.java:725-728 | Trino's lexer reads an escaped body back as the raw string, whatever follows it |
| Literals.ScanSparkEscaped | testing/trino-product-tests/src/main/java/io/trino/tests/product/iceberg/TestIcebergSparkCompatibility.java:720-723 | Spark's lexer reads an escaped body back as the raw string, whatever follows it |
| Literals.TrinoRoundTrip | testing/trino-product-tests/src/main/java/io/trino/tests/product/iceberg/TestIcebergSparkCompatibility.java:725-728 | `'` + `escapeTrinoString(s)` + `'` is one literal denoting `s`, followed by any text that does not start with an apostrophe |
| Literals.SparkRoundTrip | testing/trino-product-tests/src/main/java/io/trino/tests/product/iceberg/TestIcebergSparkCompatibility.java:720-723 | `'` + `escapeSparkString(s)` + `'` is one literal denoting `s`, followed by any text at all |
| Literals.LiteralRoundTrip | testing/trino-product-tests/src/main/java/io/trino/tests/product/iceberg/TestIcebergSparkCompatibility.java:641-647 | Either dialect reads the literal each `VALUES` tuple embeds back as the raw value and stops at its closing apostrophe |
| Literals.DecodeRoundTrip | testing/trino-product-tests/src/main/java/io/trino/tests/product/iceberg/TestIcebergSparkCompatibility.java:707-716 | The predicate literal `'<escaped value>'` denotes the raw value in both engines |
| Literals.EscapeInjective | testing/trino-product-tests/src/main/java/io/trino/tests/product/iceberg/TestIcebergSparkCompatibility.java:720-728 | Different raw strings never escape to the same body |
| Literals.EscapeTrinoWellFormed | testing/trino-product-tests/src/main/java/io/trino/tests/product/iceberg/TestIcebergSparkCompatibility.java:725-728 | In `escapeTrinoString(s)` every maximal run of apostrophes has even length, so every apostrophe belongs to a `''` pair |
| Literals.EscapeSparkPerCharWellFormed | testing/trino-product-tests/src/main/java/io/trino/tests/product/iceberg/TestIcebergSparkCompatibility.java:720-723 | In Spark's per-character escaping every apostrophe follows an odd run of backslashes, and the body does not end in an odd run of backslashes |
| Literals.EscapedBodiesWellFormed | testing/trino-product-tests/src/main/java/io/trino/tests/product/iceberg/TestIcebergSparkCompatibility.java:720-728 | Both escapers' outputs are well formed in their dialect: every apostrophe is escaped and no escape is left open (that neither ends the enclosing literal early is `Literals.ScanTrinoEscaped` and `Literals.ScanSparkEscaped`) |
| Literals.SwappedOrderBreaksRoundTrip | testing/trino-product-tests/src/main/java/io/trino/tests/product/iceberg/TestIcebergSparkCompatibility.java:720-723 | With the two replacements swapped, any string containing an apostrophe no longer decodes as one literal body in Spark |
| Literals.UnescapedApostropheClosesEarly | testing/trino-product-tests/src/main/java/io/trino/tests/product/iceberg/TestIcebergSparkCompatibility.java:720-723 | With only the backslash doubling, any string containing an apostrophe no longer decodes as one literal body in Spark: its first apostrophe closes the literal |
| Literals.UndoubledBackslashIsMisread | testing/trino-product-tests/src/main/java/io/trino/tests/product/iceberg/TestIcebergSparkCompatibility.java:720-723 | Without the backslash doubling, the corpus value `with\backslash` would be read by Spark with a backspace in place of `\b` |
| Literals.WildcardEscapesKeepBackslash | testing/trino-product-tests/src/main/java/io/trino/tests/product/iceberg/TestIcebergSparkCompatibility.java:720-723 | Spark reads the bodies `\%` and `\_` as themselves, backslash kept, so the doubling is not needed for every string |
| PartitionValues.Decimal | testing/trino-product-tests/src/main/java/io/trino/tests/product/iceberg/TestIcebergSparkCompatibility.java:641-647 | `%d` of a non-negative index is a non-empty string of decimal digits that starts with `0` exactly when the index is 0, so it has no leading zero |
| PartitionValues.DecimalRoundTrip | testing/trino-product-tests/src/main/java/io/trino/tests/product/iceberg/TestIcebergSparkCompatibility.java:641-647 | Reading the digits that `%d` wrote gives back the index |
| PartitionValues.LeadingDigits | testing/trino-product-tests/src/main/java/io/trino/tests/product/iceberg/TestIcebergSparkCompatibility.java:641-647 | The digit prefix a lexer takes is all digits and is followed by a non-digit or the end |
| PartitionValues.RenderedTuples | testing/trino-product-tests/src/main/java/io/trino/tests/product/iceberg/TestIcebergSparkCompatibility.java:641-647 | `mapWithIndex` yields one tuple per value, and tuple `i` carries index `i` and the escaped value `i` |
| PartitionValues.InsertedPartitionValues | testing/trino-product-tests/src/main/java/io/trino/tests/product/iceberg/TestIcebergSparkCompatibility.java:641-651 | The inserted `VALUES` list of either engine reads back as exactly the expected rows, for any non-empty list of at most 2^31 values |
| PartitionValues.Int32Cast | testing/trino-product-tests/src/main/java/io/trino/tests/product/iceberg/TestIcebergSparkCompatibility.java:649-651 | The `(int)` cast lands in the 32-bit range and agrees with the index modulo 2^32 |
| PartitionValues.ExpectedRows | testing/trino-product-tests/src/main/java/io/trino/tests/product/iceberg/TestIcebergSparkCompatibility.java:649-651 | One expected row per value: row `i` is `((int) i, value i)`, unescaped |
| PartitionValues.ExpectedPartitionValues | testing/trino-product-tests/src/main/java/io/trino/tests/product/iceberg/TestIcebergSparkCompatibility.java:614-651 | `EXPECTED_PARTITION_VALUES` has 25 rows, and row `i` holds `i` and corpus value `i`, unescaped |
| PartitionValues.ParseValues | testing/trino-product-tests/src/main/java/io/trino/tests/product/iceberg/TestIcebergSparkCompatibility.java:641-647 | A `VALUES` list that reads starts with a parenthesis and yields at least one and at most as many rows as it has characters |
| PartitionValues.ParseTupleShape | testing/trino-product-tests/src/main/java/io/trino/tests/product/iceberg/TestIcebergSparkCompatibility.java:641-647 | A tuple `(<digits>, '<literal>)` reads as the row of that number and the literal's denotation |
| PartitionValues.ParseRenderedTuple | testing/trino-product-tests/src/main/java/io/trino/tests/product/iceberg/TestIcebergSparkCompatibility.java:641-647 | Each rendered tuple reads back as `(i, value i)`, whatever text follows |
| PartitionValues.ParseRenderedTuples | testing/trino-product-tests/src/main/java/io/trino/tests/product/iceberg/TestIcebergSparkCompatibility.java:641-651 | A joined list of rendered tuples reads back as the expected rows, as long as every index fits in an int |
| PartitionValues.CorpusReadBack | testing/trino-product-tests/src/main/java/io/trino/tests/product/iceberg/TestIcebergSparkCompatibility.java:614-651 | `TRINO_INSERTED_PARTITION_VALUES` and `SPARK_INSERTED_PARTITION_VALUES` read back as the 25 rows of `EXPECTED_PARTITION_VALUES` |
| PartitionValues.CountMatching | testing/trino-product-tests/src/main/java/io/trino/tests/product/iceberg/TestIcebergSparkCompatibility.java:703-718 | `count(*)` under `part_col = v` is at most the number of rows, and zero exactly when no row holds `v` |
| PartitionValues.SelectCount | testing/trino-product-tests/src/main/java/io/trino/tests/product/iceberg/TestIcebergSparkCompatibility.java:703-718 | The count query fails exactly when its literal does not lex; otherwise its count is at most the number of rows, and zero exactly when no row holds the denoted value |
| PartitionValues.CountMatchingExpected | testing/trino-product-tests/src/main/java/io/trino/tests/product/iceberg/TestIcebergSparkCompatibility.java:703-718 | The rows whose partition column equals `v` are exactly as many as the occurrences of `v` among the values |
| PartitionValues.PredicateMatchesOneRow | testing/trino-product-tests/src/main/java/io/trino/tests/product/iceberg/TestIcebergSparkCompatibility.java:703-718 | For distinct values, each engine's predicate `part_col = '<escaped value>'` counts exactly one expected row |
| PartitionValues.CorpusDistinct | testing/trino-product-tests/src/main/java/io/trino/tests/product/iceberg/TestIcebergSparkCompatibility.java:614-639 | No value of `SPECIAL_CHARACTER_VALUES` is repeated |
| PartitionValues.CorpusPredicatesMatchOneRow | testing/trino-product-tests/src/main/java/io/trino/tests/product/iceberg/TestIcebergSparkCompatibility.java:703-718 | For every corpus value, both engines' count queries yield 1 |
| TestMatrix.Ordinal | testing/trino-product-tests/src/main/java/io/trino/tests/product/iceberg/TestIcebergSparkCompatibility.java:763-768 | Every format sits at its ordinal in `StorageFormat.values()` |
| TestMatrix.IsSupportedInTrino | testing/trino-product-tests/src/main/java/io/trino/tests/product/iceberg/TestIcebergSparkCompatibility.java:770-775 | Trino supports exactly PARQUET and ORC |
| TestMatrix.FormatsWithSupport | testing/trino-product-tests/src/main/java/io/trino/tests/product/iceberg/TestIcebergSparkCompatibility.java:745-761 | The filtered stream holds a format exactly when the format was in the input and its support in Trino matches the filter |
| TestMatrix.FormatsWithSupportKeepsOrder | testing/trino-product-tests/src/main/java/io/trino/tests/product/iceberg/TestIcebergSparkCompatibility.java:745-761 | Filtering keeps declaration order |
| TestMatrix.FormatsWithSupportPartition | testing/trino-product-tests/src/main/java/io/trino/tests/product/iceberg/TestIcebergSparkCompatibility.java:745-761 | Filtering on support and on its negation puts every element into exactly one result, so the two multisets add up to the input |
| TestMatrix.StorageFormats | testing/trino-product-tests/src/main/java/io/trino/tests/product/iceberg/TestIcebergSparkCompatibility.java:745-752 | `storageFormats()` is `[PARQUET, ORC]`, exactly the formats Trino supports |
| TestMatrix.UnsupportedStorageFormats | testing/trino-product-tests/src/main/java/io/trino/tests/product/iceberg/TestIcebergSparkCompatibility.java:754-761 | `unsupportedStorageFormats()` is `[AVRO]`, exactly the format Trino does not support |
| TestMatrix.StorageFormatPartition | testing/trino-product-tests/src/main/java/io/trino/tests/product/iceberg/TestIcebergSparkCompatibility.java:745-776 | The two providers split `StorageFormat.values()`. The supported ones are exactly the formats other than AVRO. Both lists are in enum order |
| TestMatrix.SupportedFormatCount | testing/trino-product-tests/src/main/java/io/trino/tests/product/iceberg/TestIcebergSparkCompatibility.java:745-751 | `storageFormats()` lists each supported format once and no unsupported format |
| TestMatrix.CrossWithCreateModes | testing/trino-product-tests/src/main/java/io/trino/tests/product/iceberg/TestIcebergSparkCompatibility.java:271-281 | The flat map yields three pairs per format, all with formats from the input |
| TestMatrix.CrossIndexing | testing/trino-product-tests/src/main/java/io/trino/tests/product/iceberg/TestIcebergSparkCompatibility.java:271-281 | Entry `3i + k` pairs format `i` with `CreateMode` `k` (format-major order) |
| TestMatrix.CrossCounts | testing/trino-product-tests/src/main/java/io/trino/tests/product/iceberg/TestIcebergSparkCompatibility.java:271-281 | Each (format, mode) pair occurs as often as the format occurs in the input |
| TestMatrix.SparkReadingTrinoDataProvider | testing/trino-product-tests/src/main/java/io/trino/tests/product/iceberg/TestIcebergSparkCompatibility.java:271-281 | The provider is PARQUET with the three create modes in declaration order, then ORC with the same three |
| TestMatrix.SparkReadingTrinoDataProviderContents | testing/trino-product-tests/src/main/java/io/trino/tests/product/iceberg/TestIcebergSparkCompatibility.java:271-281 | The provider yields `3 × |storageFormats()|` = 6 pairs, each supported format with each `CreateMode` exactly once, and no unsupported format |
| Subscripts.TrinoElementAt | testing/trino-product-tests/src/main/java/io/trino/tests/product/iceberg/TestIcebergSparkCompatibility.java:440-445 | A Trino subscript `k` selects what Spark subscript `k - 1` selects, and fails where Spark's does |
| Subscripts.Lookup | testing/trino-product-tests/src/main/java/io/trino/tests/product/iceberg/TestIcebergSparkCompatibility.java:363 | A map lookup by key or a struct field lookup by name fails exactly when no entry has the key |
| Subscripts.LookupFirst | testing/trino-product-tests/src/main/java/io/trino/tests/product/iceberg/TestIcebergSparkCompatibility.java:363 | A successful map or struct lookup yields the value of the first entry with the key |
| Subscripts.Step | testing/trino-product-tests/src/main/java/io/trino/tests/product/iceberg/TestIcebergSparkCompatibility.java:363 | An array subscript applies only to an array, a key only to a map, a field name only to a struct; anything else fails |
| Subscripts.SelectAppend | testing/trino-product-tests/src/main/java/io/trino/tests/product/iceberg/TestIcebergSparkCompatibility.java:429-434 | Selecting by a concatenated path selects by the first part and then by the second from what it found, and fails where either part fails |
| Subscripts.StepTranslation | testing/trino-product-tests/src/main/java/io/trino/tests/product/iceberg/TestIcebergSparkCompatibility.java:429-445 | A Spark step and the step with its subscript one higher select the same element in Trino |
| Subscripts.ToTrinoPathAt | testing/trino-product-tests/src/main/java/io/trino/tests/product/iceberg/TestIcebergSparkCompatibility.java:440-445 | Step `j` of the translated path is step `j` of the Spark path with its array subscript one higher |
| Subscripts.ToTrinoPathInverse | testing/trino-product-tests/src/main/java/io/trino/tests/product/iceberg/TestIcebergSparkCompatibility.java:440-445 | Lowering every array subscript of a translated path by one gives back the Spark path, so the translation loses nothing |
| Subscripts.PathTranslation | testing/trino-product-tests/src/main/java/io/trino/tests/product/iceberg/TestIcebergSparkCompatibility.java:429-445 | A Spark path and the same path with every array subscript one higher select the same element of any nested value in Trino |
| Subscripts.NestedQueryTranslated | testing/trino-product-tests/src/main/java/io/trino/tests/product/iceberg/TestIcebergSparkCompatibility.java:429-445 | Each column of the Trino nested-data query is the translation of the Spark query's column |
| Subscripts.NestedQueriesAgree | testing/trino-product-tests/src/main/java/io/trino/tests/product/iceberg/TestIcebergSparkCompatibility.java:485-502 | The seven Spark and Trino columns of the nested-data tests select the same elements of every value |
| Subscripts.NestedColumn | testing/trino-product-tests/src/main/java/io/trino/tests/product/iceberg/TestIcebergSparkCompatibility.java:413-436 | Each Spark column selects the expected cell from the inserted nested row |
| Subscripts.NestedRowReadBack | testing/trino-product-tests/src/main/java/io/trino/tests/product/iceberg/TestIcebergSparkCompatibility.java:396-450 | Both engines read `row("Doc213", "ASName2", 201, "MAS2Name1", 302, "SAMA1Name1", 402)` from the inserted nested row |
| Subscripts.CompositeSparkColumns | testing/trino-product-tests/src/main/java/io/trino/tests/product/iceberg/TestIcebergSparkCompatibility.java:386-391 | `doc_id, info['age'], pets[1], user_info.surname` selects `("Doc213", 28, "Cat", "Claus")` in Spark |
| Subscripts.CompositeRowReadBack | testing/trino-product-tests/src/main/java/io/trino/tests/product/iceberg/TestIcebergSparkCompatibility.java:358-391 | The Trino composite query (`pets[2]`) is the translation of the Spark one (`pets[1]`), and both select `("Doc213", 28, "Cat", "Claus")` |

## Left out

- Query execution through `onSpark()` / `onTrino()`, `containsOnly`, `assertQueryFailure` and its message patterns: these are live-engine I/O.
- Table and schema DDL, snapshot handling, drops, and the `sparkTableName` / `trinoTableName` helpers: string concatenation around I/O, with no property of their own.
- Field-ID schema evolution, time-zone conversion of timestamps, REAL/DOUBLE and decimal values, and object-storage paths: these are engine behaviour the tests observe but do not implement.
- `TestHiveSparkCompatibility.java` and `TestingIcebergPlugin.java` are not part of this model: one is pure I/O and the other is wiring.
- The engines' lexers are models. `Scan` rejects (`None`) every Spark `\u` and `\0`..`\7` escape, including the one-character forms Spark accepts: `\0` alone as NUL, a lone octal digit before a non-octal character, and `\u` without four hex digits after it. Neither escaped body ever contains them, because every backslash there is doubled.
- Java strings are UTF-16 code units and Dafny strings are Unicode scalar values. Only the ASCII apostrophe and backslash are ever rewritten, so this changes nothing the model states. The corpus is written with scalar values.
- `Object[]` rows of the data providers are modelled as the values they wrap: a format, or a (format, mode) pair.
- Subscripts.TrinoElementAt: an out-of-range subscript gives NULL in Spark and an error in Trino. Both are `None` here, so the model does not tell the two apart.
- Subscripts.Step: a missing map key gives NULL in Spark and fails with "Key not present in map" in Trino. Both are `None` here, and so are out-of-range subscripts, so `Subscripts.Lookup` and `Subscripts.PathTranslation` equate a Spark NULL with a Trino failure. The step also fails when a field name meets anything but a struct, while Spark applies `.name` to an array of structs (yielding the array of that field) and to a map (as a key lookup); the nested-column queries modelled here use neither form.
- Subscripts.Lookup compares struct field names exactly. Both engines resolve field names without regard to case (in Spark under its default `spark.sql.caseSensitive=false`); every modelled query spells the field names as declared, so no stated property depends on this.
- PartitionValues.Decimal writes ASCII digits `0`-`9`. Java's `String.format` with `%d` uses the digits of the default locale, so the model assumes a locale with ASCII digits; `PartitionValues.ParseRenderedTuple` and `PartitionValues.InsertedPartitionValues` depend on that.
- PartitionValues.ParseValues reads only non-empty lists with exactly `", "` between tuples, which is all the tests produce. It is not a general SQL `VALUES` grammar.
- PartitionValues.InsertedPartitionValues promises the read-back only for non-empty lists of at most 2^31 values, because beyond that `(int) i` wraps and the expected rows no longer carry `i`. The corpus has 25.

=== FILE: literals.dfy ===
/** String literals of the two SQL dialects the compatibility tests speak.

    The tests build every string literal by hand: Trino's escaper doubles each
    apostrophe (the quote-doubling rule for a character string literal in
    ISO/IEC 9075-2, Subclause 5.3), Spark's escaper first doubles each backslash
    and then puts a backslash in front of each apostrophe (Spark SQL's
    backslash-escape grammar). The engines' own lexers are modelled by `Scan`,
    which reads a literal body up to its closing apostrophe and says what the
    literal denotes and what text follows it. */
module Literals {
  import opened Wrappers

  const Apostrophe: char := '\''
  const Backslash: char := '\\'

  datatype Dialect = Trino | Spark

  /** Java's `String.replace` for a one-character target: every occurrence of
      `target`, scanned left to right, is replaced by `replacement`. No
      occurrence survives unless the replacement brings it back, and a string
      without the target comes back as it is. On a single character it is the
      replacement or the character itself, which together with
      `ReplaceCharAppend` fixes the result on every string. */
  function ReplaceChar(s: string, target: char, replacement: string): (r: string)
    ensures |s| == 1 ==> r == (if s[0] == target then replacement else s)
    ensures target !in replacement ==> target !in r
    ensures target !in s ==> r == s
  {
    if s == [] then []
    else
      assert s == [s[0]] + s[1..];
      (if s[0] == target then replacement else [s[0]]) + ReplaceChar(s[1..], target, replacement)
  }

  /** A two-character replacement adds one character per occurrence, and a
      string without the target is left as it is. */
  lemma {:induction false} ReplaceCharLength(s: string, target: char, replacement: string)
    requires |replacement| == 2
    ensures |ReplaceChar(s, target, replacement)| == |s| + multiset(s)[target]
    ensures target !in s ==> ReplaceChar(s, target, replacement) == s
  {
    if s != [] {
      assert s == [s[0]] + s[1..];
      ReplaceCharLength(s[1..], target, replacement);
    }
  }

  /** Replacing in a concatenation replaces in each part. */
  lemma {:induction false} ReplaceCharAppend(a: string, b: string, target: char, replacement: string)
    ensures ReplaceChar(a + b, target, replacement)
         == ReplaceChar(a, target, replacement) + ReplaceChar(b, target, replacement)
  {
    if a == [] {
      assert a + b == b;
    } else {
      assert (a + b)[0] == a[0];
      assert (a + b)[1..] == a[1..] + b;
      ReplaceCharAppend(a[1..], b, target, replacement);
    }
  }

  /** `escapeTrinoString`: each apostrophe becomes two, so the result is one
      character longer per apostrophe. */
  function EscapeTrino(s: string): (r: string)
    ensures |r| == |s| + multiset(s)[Apostrophe]
  {
    ReplaceCharLength(s, Apostrophe, "''");
    ReplaceChar(s, Apostrophe, "''")
  }

  /** Trino escaping adds one character per apostrophe and leaves a string
      without apostrophes unchanged, and only such a string. */
  lemma TrinoEscapeMinimal(s: string)
    ensures |EscapeTrino(s)| == |s| + multiset(s)[Apostrophe]
    ensures EscapeTrino(s) == s <==> Apostrophe !in s
  {
    ReplaceCharLength(s, Apostrophe, "''");
  }

  /** `escapeSparkString`: backslashes are doubled first, then each apostrophe
      gets a backslash in front of it. */
  function EscapeSpark(s: string): (r: string)
    ensures r == EscapeSparkPerChar(s)
  {
    EscapeSparkIsPerChar(s);
    ReplaceChar(ReplaceChar(s, Backslash, "\\\\"), Apostrophe, "\\'")
  }

  /** Spark escaping adds one character per backslash and per apostrophe and
      leaves a string with neither unchanged, and only such a string. */
  lemma SparkEscapeMinimal(s: string)
    ensures |EscapeSpark(s)| == |s| + multiset(s)[Backslash] + multiset(s)[Apostrophe]
    ensures EscapeSpark(s) == s <==> Backslash !in s && Apostrophe !in s
  {
    EscapeSparkIsPerChar(s);
    EscapeSparkPerCharLength(s);
    if Backslash !in s && Apostrophe !in s {
      ReplaceCharLength(s, Backslash, "\\\\");
      ReplaceCharLength(s, Apostrophe, "\\'");
    }
  }

  /** The escaper of a dialect. */
  function Escape(d: Dialect, s: string): string
  {
    match d
    case Trino => EscapeTrino(s)
    case Spark => EscapeSpark(s)
  }

  /** What one raw character becomes in a Spark literal body. */
  function SparkCharEscape(c: char): string
  {
    if c == Backslash then "\\\\"
    else if c == Apostrophe then "\\'"
    else [c]
  }

  /** Reference definition of Spark escaping: each character escaped on its own,
      independently of its neighbours. */
  function EscapeSparkPerChar(s: string): string
  {
    if s == [] then [] else SparkCharEscape(s[0]) + EscapeSparkPerChar(s[1..])
  }

  /** Per-character escaping adds one character per backslash and per
      apostrophe. */
  lemma {:induction false} EscapeSparkPerCharLength(s: string)
    ensures |EscapeSparkPerChar(s)| == |s| + multiset(s)[Backslash] + multiset(s)[Apostrophe]
  {
    if s != [] {
      assert s == [s[0]] + s[1..];
      EscapeSparkPerCharLength(s[1..]);
    }
  }

  /** The two chained replacements of `escapeSparkString` escape each character
      independently. This holds because backslashes are doubled before
      apostrophes are escaped: the backslash added in front of an apostrophe is
      never doubled again. */
  lemma {:induction false} EscapeSparkIsPerChar(s: string)
    ensures ReplaceChar(ReplaceChar(s, Backslash, "\\\\"), Apostrophe, "\\'") == EscapeSparkPerChar(s)
  {
    if s != [] {
      var head := if s[0] == Backslash then "\\\\" else [s[0]];
      var tail := ReplaceChar(s[1..], Backslash, "\\\\");
      assert ReplaceChar(s, Backslash, "\\\\") == head + tail;
      ReplaceCharAppend(head, tail, Apostrophe, "\\'");
      if s[0] == Backslash {
        assert ReplaceChar(head, Apostrophe, "\\'") == "\\\\" by {
          assert head == [Backslash] + [Backslash];
          ReplaceCharAppend([Backslash], [Backslash], Apostrophe, "\\'");
        }
      } else {
        assert ReplaceChar(head, Apostrophe, "\\'") == SparkCharEscape(s[0]);
      }
      EscapeSparkIsPerChar(s[1..]);
    }
  }

  /** What one raw character becomes in a Trino literal body. */
  function TrinoCharEscape(c: char): string
  {
    if c == Apostrophe then "''" else [c]
  }

  lemma EscapeTrinoCons(c: char, s: string)
    ensures EscapeTrino([c] + s) == TrinoCharEscape(c) + EscapeTrino(s)
  {
    assert ([c] + s)[1..] == s;
  }

  /** The escapers applied to one appended character. */
  lemma EscapeTrinoSnoc(s: string, c: char)
    ensures EscapeTrino(s + [c]) == EscapeTrino(s) + TrinoCharEscape(c)
  {
    ReplaceCharAppend(s, [c], Apostrophe, "''");
  }

  lemma {:induction false} EscapeSparkSnoc(s: string, c: char)
    ensures EscapeSparkPerChar(s + [c]) == EscapeSparkPerChar(s) + SparkCharEscape(c)
  {
    if s == [] {
      assert s + [c] == [c];
    } else {
      assert (s + [c])[1..] == s[1..] + [c];
      EscapeSparkSnoc(s[1..], c);
    }
  }

  // ---------------------------------------------------------------------------
  // The engines' literal lexers
  // ---------------------------------------------------------------------------

  /** What Spark's `unescapeSQLString` makes of a backslash followed by `c`.
      `None` for every unicode (`\u`) and octal (`\0`..`\7`) escape, which are
      not part of this model: this includes their one-character forms that
      Spark accepts (`\0` alone, a lone octal digit, `\u` without four hex
      digits). */
  function SparkEscapedChar(c: char): Option<string>
  {
    if c == 'u' || ('0' <= c <= '7') then None
    else if c == 'b' then Some([8 as char])
    else if c == 'n' then Some("\n")
    else if c == 'r' then Some("\r")
    else if c == 't' then Some("\t")
    else if c == 'Z' then Some([26 as char])
    else if c == '%' then Some("\\%")
    else if c == '_' then Some("\\_")
    else Some([c])
  }

  /** Trino's lexer on the text after an opening apostrophe: `''` stands for one
      apostrophe and a lone apostrophe closes the literal. Yields the denoted
      string and the text after the closing apostrophe. */
  function ScanTrino(t: string): (r: Option<(string, string)>)
    ensures r.Some? ==> |r.value.1| < |t|
  {
    if t == [] then None
    else if t[0] == Apostrophe then
      if |t| >= 2 && t[1] == Apostrophe then
        match ScanTrino(t[2..])
        case None => None
        case Some((v, rest)) => Some(([Apostrophe] + v, rest))
      else Some(([], t[1..]))
    else
      match ScanTrino(t[1..])
      case None => None
      case Some((v, rest)) => Some(([t[0]] + v, rest))
  }

  /** Spark's lexer on the text after an opening apostrophe: a backslash escapes
      the next character and an unescaped apostrophe closes the literal. */
  function ScanSpark(t: string): (r: Option<(string, string)>)
    ensures r.Some? ==> |r.value.1| < |t|
  {
    if t == [] then None
    else if t[0] == Apostrophe then Some(([], t[1..]))
    else if t[0] == Backslash then
      if |t| < 2 then None
      else
        match SparkEscapedChar(t[1])
        case None => None
        case Some(e) =>
          match ScanSpark(t[2..])
          case None => None
          case Some((v, rest)) => Some((e + v, rest))
    else
      match ScanSpark(t[1..])
      case None => None
      case Some((v, rest)) => Some(([t[0]] + v, rest))
  }

  /** Trino's lexer stops right after a closing apostrophe and leaves the
      rest of the text as it is; the literal denotes fewer characters than its
      body and closing apostrophe take up. */
  lemma {:induction false} ScanTrinoSuffix(t: string)
    requires ScanTrino(t).Some?
    ensures var (v, rest) := ScanTrino(t).value;
      t[|t| - |rest| - 1] == Apostrophe && t[|t| - |rest|..] == rest && |v| + |rest| < |t|
  {
    if t[0] != Apostrophe {
      ScanTrinoSuffix(t[1..]);
    } else if |t| >= 2 && t[1] == Apostrophe {
      ScanTrinoSuffix(t[2..]);
    }
  }

  /** Spark's lexer stops right after an apostrophe and leaves the rest of the
      text as it is; the literal denotes fewer characters than its body and
      closing apostrophe take up. */
  lemma {:induction false} ScanSparkSuffix(t: string)
    requires ScanSpark(t).Some?
    ensures var (v, rest) := ScanSpark(t).value;
      t[|t| - |rest| - 1] == Apostrophe && t[|t| - |rest|..] == rest && |v| + |rest| < |t|
  {
    if t[0] == Backslash {
      ScanSparkSuffix(t[2..]);
    } else if t[0] != Apostrophe {
      ScanSparkSuffix(t[1..]);
    }
  }

  /** The apostrophe that closes a Spark literal is unescaped: an even run of
      backslashes, possibly empty, stands right before it. */
  lemma {:induction false} ScanSparkClosesUnescaped(t: string)
    requires ScanSpark(t).Some?
    decreases |t|, 1
    ensures var rest := ScanSpark(t).value.1;
      |rest| < |t| && RunBefore(t, |t| - |rest| - 1, Backslash) % 2 == 0
  {
    if t[0] == Backslash {
      ScanSparkClosesUnescapedAfter(t, 2);
    } else if t[0] != Apostrophe {
      ScanSparkClosesUnescapedAfter(t, 1);
    }
  }

  /** The inductive step of `ScanSparkClosesUnescaped`: the first `k`
      characters of `t` are one step of the lexer and the rest scans on. */
  lemma {:induction false} ScanSparkClosesUnescapedAfter(t: string, k: nat)
    requires 0 < k <= |t| && ScanSpark(t).Some? && ScanSpark(t[k..]).Some?
    requires ScanSpark(t).value.1 == ScanSpark(t[k..]).value.1
    requires k == (if t[0] == Backslash then 2 else 1)
    decreases |t|, 0
    ensures var rest := ScanSpark(t).value.1;
      |rest| < |t| && RunBefore(t, |t| - |rest| - 1, Backslash) % 2 == 0
  {
    var u := t[k..];
    var rest := ScanSpark(u).value.1;
    ScanSparkClosesUnescaped(u);
    assert t == t[..k] + u;
    RunBeforePrepend(t[..k], u, |u| - |rest| - 1, Backslash);
  }

  /** The lexer of a dialect. */
  function Scan(d: Dialect, t: string): (r: Option<(string, string)>)
    ensures r.Some? ==> |r.value.1| < |t|
  {
    match d
    case Trino => ScanTrino(t)
    case Spark => ScanSpark(t)
  }

  /** The string that `'` + `body` + `'` denotes, or `None` when the body is
      not a complete literal body on its own. */
  function Decode(d: Dialect, body: string): Option<string>
  {
    match Scan(d, body + [Apostrophe])
    case Some((v, rest)) => if rest == [] then Some(v) else None
    case None => None
  }

  // ---------------------------------------------------------------------------
  // Round trips
  // ---------------------------------------------------------------------------

  /** Regrouping a concatenation. A lemma of its own keeps this step out of
      the larger proofs that need it, where the solver finds it costly. */
  lemma Reassociate(a: string, b: string, c: string)
    ensures a + b + c == a + (b + c)
  {
  }

  /** Prepends `c` to the string a successful scan denotes. */
  function Prepend(c: string, r: Option<(string, string)>): Option<(string, string)>
  {
    match r
    case None => None
    case Some((v, rest)) => Some((c + v, rest))
  }

  lemma PrependTwice(a: string, b: string, r: Option<(string, string)>)
    ensures Prepend(a, Prepend(b, r)) == Prepend(a + b, r)
  {
    match r
    case None =>
    case Some((v, rest)) => assert a + (b + v) == (a + b) + v;
  }

  lemma ScanTrinoOrdinary(c: char, u: string)
    requires c != Apostrophe
    ensures ScanTrino([c] + u) == Prepend([c], ScanTrino(u))
  {
    assert ([c] + u)[1..] == u;
  }

  lemma ScanTrinoClosing(rest: string)
    requires rest == [] || rest[0] != Apostrophe
    ensures ScanTrino([Apostrophe] + rest) == Some(([], rest))
  {
    assert ([Apostrophe] + rest)[1..] == rest;
  }

  lemma ScanTrinoDoubled(u: string)
    ensures ScanTrino("''" + u) == Prepend([Apostrophe], ScanTrino(u))
  {
    assert ("''" + u)[2..] == u;
  }

  lemma ScanSparkOrdinary(c: char, u: string)
    requires c != Apostrophe && c != Backslash
    ensures ScanSpark([c] + u) == Prepend([c], ScanSpark(u))
  {
    assert ([c] + u)[1..] == u;
  }

  lemma ScanSparkBackslashPair(c: char, u: string)
    requires c == Apostrophe || c == Backslash
    ensures ScanSpark([Backslash, c] + u) == Prepend([c], ScanSpark(u))
  {
    assert ([Backslash, c] + u)[2..] == u;
  }

  /** Trino's lexer reads a quote-doubled string as the raw string and then
      carries on with whatever follows: no character of the escaped text can
      close the literal. */
  lemma {:induction false} ScanTrinoEscaped(s: string, t: string)
    ensures ScanTrino(EscapeTrino(s) + t) == Prepend(s, ScanTrino(t))
  {
    if s == [] {
      assert EscapeTrino(s) + t == t;
      match ScanTrino(t)
      case None =>
      case Some((v, rest)) => assert s + v == v;
    } else {
      var c, tail := s[0], s[1..];
      var u := EscapeTrino(tail) + t;
      calc {
        ScanTrino(EscapeTrino(s) + t);
        { EscapeTrinoCons(c, tail); assert [c] + tail == s;
          Reassociate(TrinoCharEscape(c), EscapeTrino(tail), t); }
        ScanTrino(TrinoCharEscape(c) + u);
        { ScanTrinoCharEscape(c, u); }
        Prepend([c], ScanTrino(u));
        { ScanTrinoEscaped(tail, t); }
        Prepend([c], Prepend(tail, ScanTrino(t)));
        { PrependTwice([c], tail, ScanTrino(t)); assert [c] + tail == s; }
        Prepend(s, ScanTrino(t));
      }
    }
  }

  /** Trino's lexer reads one escaped character back as that character. */
  lemma ScanTrinoCharEscape(c: char, u: string)
    ensures ScanTrino(TrinoCharEscape(c) + u) == Prepend([c], ScanTrino(u))
  {
    if c == Apostrophe {
      ScanTrinoDoubled(u);
    } else {
      ScanTrinoOrdinary(c, u);
    }
  }

  /** Spark's lexer reads one escaped character back as that character. */
  lemma ScanSparkCharEscape(c: char, u: string)
    ensures ScanSpark(SparkCharEscape(c) + u) == Prepend([c], ScanSpark(u))
  {
    if c == Backslash || c == Apostrophe {
      ScanSparkBackslashPair(c, u);
    } else {
      ScanSparkOrdinary(c, u);
    }
  }

  /** Spark's lexer reads a backslash-escaped string as the raw string and then
      carries on with whatever follows. */
  lemma {:induction false} ScanSparkEscaped(s: string, t: string)
    ensures ScanSpark(EscapeSparkPerChar(s) + t) == Prepend(s, ScanSpark(t))
  {
    if s == [] {
      assert EscapeSparkPerChar(s) + t == t;
      match ScanSpark(t)
      case None =>
      case Some((v, rest)) => assert s + v == v;
    } else {
      var c, tail := s[0], s[1..];
      var u := EscapeSparkPerChar(tail) + t;
      calc {
        ScanSpark(EscapeSparkPerChar(s) + t);
        { assert EscapeSparkPerChar(s) + t == SparkCharEscape(c) + u; }
        ScanSpark(SparkCharEscape(c) + u);
        { ScanSparkCharEscape(c, u); }
        Prepend([c], ScanSpark(u));
        { ScanSparkEscaped(tail, t); }
        Prepend([c], Prepend(tail, ScanSpark(t)));
        { PrependTwice([c], tail, ScanSpark(t)); assert [c] + tail == s; }
        Prepend(s, ScanSpark(t));
      }
    }
  }

  /** Trino reads a quote-doubled literal back as the raw string, and stops
      exactly at the closing apostrophe, whatever follows it (except a further
      apostrophe, which would pair with the closing one). */
  lemma TrinoRoundTrip(s: string, rest: string)
    requires rest == [] || rest[0] != Apostrophe
    ensures ScanTrino(EscapeTrino(s) + [Apostrophe] + rest) == Some((s, rest))
  {
    ScanTrinoEscaped(s, [Apostrophe] + rest);
    ScanTrinoClosing(rest);
    Reassociate(EscapeTrino(s), [Apostrophe], rest);
    assert s + [] == s;
  }

  /** Spark reads a backslash-escaped literal back as the raw string, and stops
      exactly at the closing apostrophe whatever follows it. */
  lemma SparkRoundTrip(s: string, rest: string)
    ensures ScanSpark(EscapeSpark(s) + [Apostrophe] + rest) == Some((s, rest))
  {
    EscapeSparkIsPerChar(s);
    ScanSparkEscaped(s, [Apostrophe] + rest);
    Reassociate(EscapeSpark(s), [Apostrophe], rest);
    assert ([Apostrophe] + rest)[1..] == rest;
    assert s + [] == s;
  }

  /** Each dialect's lexer reads its own escaper's output back as the raw
      string and resumes right after the closing apostrophe. */
  lemma LiteralRoundTrip(d: Dialect, s: string, rest: string)
    requires rest == [] || rest[0] != Apostrophe
    ensures Scan(d, Escape(d, s) + [Apostrophe] + rest) == Some((s, rest))
  {
    match d
    case Trino => TrinoRoundTrip(s, rest);
    case Spark => SparkRoundTrip(s, rest);
  }

  /** An escaped string, quoted, denotes exactly the raw string. */
  lemma DecodeRoundTrip(d: Dialect, s: string)
    ensures Decode(d, Escape(d, s)) == Some(s)
  {
    LiteralRoundTrip(d, s, []);
    assert Escape(d, s) + [Apostrophe] + [] == Escape(d, s) + [Apostrophe];
  }

  /** Distinct raw strings give distinct literals. */
  lemma EscapeInjective(d: Dialect, s1: string, s2: string)
    ensures Escape(d, s1) == Escape(d, s2) ==> s1 == s2
  {
    DecodeRoundTrip(d, s1);
    DecodeRoundTrip(d, s2);
  }

  // ---------------------------------------------------------------------------
  // Well-formedness: an escaped body cannot close the literal early
  // ---------------------------------------------------------------------------

  /** Length of the run of `c` characters that ends just before position `i`. */
  function RunBefore(t: string, i: nat, c: char): (n: nat)
    requires i <= |t|
    ensures n <= i
  {
    if i == 0 || t[i - 1] != c then 0 else 1 + RunBefore(t, i - 1, c)
  }

  /** The run before a position of `t` seen inside `p + t`: the same run,
      continued into `p` when it reaches back to the start of `t`. */
  lemma {:induction false} RunBeforePrepend(p: string, t: string, i: nat, c: char)
    requires i <= |t|
    ensures RunBefore(p + t, |p| + i, c)
         == if RunBefore(t, i, c) == i then i + RunBefore(p, |p|, c) else RunBefore(t, i, c)
  {
    if i == 0 {
      RunBeforeAppend(p, t, |p|, c);
    } else {
      assert (p + t)[|p| + i - 1] == t[i - 1];
      if t[i - 1] == c {
        RunBeforePrepend(p, t, i - 1, c);
      }
    }
  }

  lemma {:induction false} RunBeforeAppend(a: string, b: string, i: nat, c: char)
    requires i <= |a|
    ensures RunBefore(a + b, i, c) == RunBefore(a, i, c)
  {
    if i > 0 && a[i - 1] == c {
      RunBeforeAppend(a, b, i - 1, c);
    }
  }

  /** Every apostrophe belongs to a `''` pair: each maximal run of apostrophes
      has even length. */
  predicate TrinoBodyWellFormed(t: string)
  {
    forall i :: 0 <= i < |t| && t[i] == Apostrophe && (i + 1 == |t| || t[i + 1] != Apostrophe)
      ==> RunBefore(t, i + 1, Apostrophe) % 2 == 0
  }

  /** Every apostrophe is preceded by an odd run of backslashes, and the body
      does not end in an odd run of backslashes (which would escape the closing
      apostrophe). */
  predicate SparkBodyWellFormed(t: string)
  {
    && (forall i :: 0 <= i < |t| && t[i] == Apostrophe ==> RunBefore(t, i, Backslash) % 2 == 1)
    && RunBefore(t, |t|, Backslash) % 2 == 0
  }

  /** Appending the escape of one character to a well-formed Trino body whose
      final apostrophe run is even keeps both properties. */
  lemma TrinoWellFormedSnoc(e: string, c: char)
    requires TrinoBodyWellFormed(e) && RunBefore(e, |e|, Apostrophe) % 2 == 0
    ensures TrinoBodyWellFormed(e + TrinoCharEscape(c))
    ensures RunBefore(e + TrinoCharEscape(c), |e + TrinoCharEscape(c)|, Apostrophe) % 2 == 0
  {
    var x := TrinoCharEscape(c);
    var t := e + x;
    RunBeforeAppend(e, x, |e|, Apostrophe);
    if c == Apostrophe {
      assert t[|e|] == Apostrophe && t[|e| + 1] == Apostrophe;
      assert RunBefore(t, |e| + 1, Apostrophe) == 1 + RunBefore(e, |e|, Apostrophe);
      assert RunBefore(t, |t|, Apostrophe) == 2 + RunBefore(e, |e|, Apostrophe);
    } else {
      assert t[|t| - 1] != Apostrophe;
    }
    forall i | 0 <= i < |t| && t[i] == Apostrophe && (i + 1 == |t| || t[i + 1] != Apostrophe)
      ensures RunBefore(t, i + 1, Apostrophe) % 2 == 0
    {
      if i + 1 < |e| {
        assert e[i] == t[i] && e[i + 1] == t[i + 1];
        RunBeforeAppend(e, x, i + 1, Apostrophe);
      } else if i + 1 == |e| {
        assert e[i] == t[i];
      }
    }
  }

  lemma {:induction false} EscapeTrinoWellFormed(s: string)
    ensures TrinoBodyWellFormed(EscapeTrino(s))
    ensures RunBefore(EscapeTrino(s), |EscapeTrino(s)|, Apostrophe) % 2 == 0
  {
    if s != [] {
      var p, c := s[..|s| - 1], s[|s| - 1];
      assert s == p + [c];
      EscapeTrinoWellFormed(p);
      EscapeTrinoSnoc(p, c);
      TrinoWellFormedSnoc(EscapeTrino(p), c);
    }
  }

  /** Appending the escape of one character to a well-formed Spark body keeps
      it well-formed. */
  lemma SparkWellFormedSnoc(e: string, c: char)
    requires SparkBodyWellFormed(e)
    ensures SparkBodyWellFormed(e + SparkCharEscape(c))
  {
    var x := SparkCharEscape(c);
    var t := e + x;
    RunBeforeAppend(e, x, |e|, Backslash);
    if c == Backslash {
      assert t[|e|] == Backslash && t[|e| + 1] == Backslash;
      assert RunBefore(t, |e| + 1, Backslash) == 1 + RunBefore(e, |e|, Backslash);
      assert RunBefore(t, |t|, Backslash) == 2 + RunBefore(e, |e|, Backslash);
    } else if c == Apostrophe {
      assert t[|e|] == Backslash && t[|e| + 1] == Apostrophe;
      assert RunBefore(t, |e| + 1, Backslash) == 1 + RunBefore(e, |e|, Backslash);
      assert RunBefore(t, |t|, Backslash) == 0;
    } else {
      assert t[|t| - 1] != Backslash;
    }
    forall i | 0 <= i < |t| && t[i] == Apostrophe
      ensures RunBefore(t, i, Backslash) % 2 == 1
    {
      if i < |e| {
        assert e[i] == t[i];
        RunBeforeAppend(e, x, i, Backslash);
      }
    }
  }

  lemma {:induction false} EscapeSparkPerCharWellFormed(s: string)
    ensures SparkBodyWellFormed(EscapeSparkPerChar(s))
  {
    if s != [] {
      var p, c := s[..|s| - 1], s[|s| - 1];
      assert s == p + [c];
      EscapeSparkPerCharWellFormed(p);
      EscapeSparkSnoc(p, c);
      SparkWellFormedSnoc(EscapeSparkPerChar(p), c);
    }
  }

  /** Neither escaper's output can terminate the enclosing literal early. */
  lemma EscapedBodiesWellFormed(s: string)
    ensures TrinoBodyWellFormed(EscapeTrino(s))
    ensures SparkBodyWellFormed(EscapeSpark(s))
  {
    EscapeTrinoWellFormed(s);
    EscapeSparkIsPerChar(s);
    EscapeSparkPerCharWellFormed(s);
  }

  // ---------------------------------------------------------------------------
  // Why both escaping steps, in this order, are needed
  // ---------------------------------------------------------------------------

  /** The replacements of `escapeSparkString` applied in the opposite order. */
  function EscapeSparkSwapped(s: string): string
  {
    ReplaceChar(ReplaceChar(s, Apostrophe, "\\'"), Backslash, "\\\\")
  }

  /** Replacing never introduces a character that is in neither the string
      nor the replacement. */
  lemma {:induction false} ReplaceCharKeepsAbsent(s: string, target: char, replacement: string, c: char)
    requires c !in s && c !in replacement
    ensures c !in ReplaceChar(s, target, replacement)
  {
    if s != [] {
      assert s[0] != c;
      ReplaceCharKeepsAbsent(s[1..], target, replacement, c);
    }
  }

  /** Position of the first occurrence of `c` in `s`. */
  function FirstIndex(s: string, c: char): (k: nat)
    requires c in s
    ensures k < |s| && s[k] == c && c !in s[..k]
  {
    if s[0] == c then 0
    else
      assert s == [s[0]] + s[1..];
      var k := FirstIndex(s[1..], c);
      assert s[..k + 1] == [s[0]] + s[1..][..k];
      k + 1
  }

  /** The apostrophe replacement of the swapped escaper, cut at the first
      apostrophe. */
  lemma SwappedFirstStep(s: string) returns (p: string)
    requires Apostrophe in s
    ensures ReplaceChar(s, Apostrophe, "\\'") == s[..FirstIndex(s, Apostrophe)] + ([Backslash, Apostrophe] + p)
  {
    var k := FirstIndex(s, Apostrophe);
    var pre, post := s[..k], s[k + 1..];
    assert s == pre + ([Apostrophe] + post);
    p := ReplaceChar(post, Apostrophe, "\\'");
    ReplaceCharAppend(pre, [Apostrophe] + post, Apostrophe, "\\'");
    ReplaceCharAppend([Apostrophe], post, Apostrophe, "\\'");
    ReplaceCharLength(pre, Apostrophe, "\\'");
    assert ReplaceChar([Apostrophe], Apostrophe, "\\'") == [Backslash, Apostrophe];
  }

  /** The backslash replacement of the swapped escaper applied to the result
      of `SwappedFirstStep`: the text before the first apostrophe comes out as
      Spark escapes it, followed by a doubled backslash and a bare apostrophe. */
  lemma SwappedSecondStep(pre: string, p: string) returns (x: string)
    requires Apostrophe !in pre
    ensures ReplaceChar(pre + ([Backslash, Apostrophe] + p), Backslash, "\\\\")
         == EscapeSparkPerChar(pre) + ([Backslash, Backslash, Apostrophe] + x)
  {
    var q := ReplaceChar(pre, Backslash, "\\\\");
    x := ReplaceChar(p, Backslash, "\\\\");
    ReplaceCharAppend(pre, [Backslash, Apostrophe] + p, Backslash, "\\\\");
    ReplaceCharAppend([Backslash, Apostrophe], p, Backslash, "\\\\");
    assert [Backslash, Apostrophe] == [Backslash] + [Apostrophe];
    ReplaceCharAppend([Backslash], [Apostrophe], Backslash, "\\\\");
    assert ReplaceChar([Backslash, Apostrophe], Backslash, "\\\\") == [Backslash, Backslash, Apostrophe];
    ReplaceCharKeepsAbsent(pre, Backslash, "\\\\", Apostrophe);
    ReplaceCharLength(q, Apostrophe, "\\'");
    EscapeSparkIsPerChar(pre);
  }

  /** With the two replacements swapped, the backslash added for the first
      apostrophe is itself doubled, so that apostrophe closes the literal and
      the body no longer denotes the raw string. */
  lemma SwappedOrderBreaksRoundTrip(s: string)
    requires Apostrophe in s
    ensures Decode(Spark, EscapeSparkSwapped(s)) == None
  {
    var pre := s[..FirstIndex(s, Apostrophe)];
    var p := SwappedFirstStep(s);
    var x := SwappedSecondStep(pre, p);
    var q := EscapeSparkPerChar(pre);
    var u := [Apostrophe] + (x + [Apostrophe]);
    assert EscapeSparkSwapped(s) + [Apostrophe] == q + ([Backslash, Backslash] + u) by {
      assert EscapeSparkSwapped(s) == q + ([Backslash, Backslash, Apostrophe] + x);
      assert [Backslash, Backslash, Apostrophe] + x + [Apostrophe] == [Backslash, Backslash] + u;
    }
    ScanSparkEscaped(pre, [Backslash, Backslash] + u);
    ScanSparkBackslashPair(Backslash, u);
    assert u[1..] == x + [Apostrophe];
  }

  /** The backslash replacement cut at the first apostrophe, which it leaves
      bare. */
  lemma BackslashStepSplit(s: string) returns (y: string)
    requires Apostrophe in s
    ensures ReplaceChar(s, Backslash, "\\\\")
         == ReplaceChar(s[..FirstIndex(s, Apostrophe)], Backslash, "\\\\") + ([Apostrophe] + y)
  {
    var k := FirstIndex(s, Apostrophe);
    var pre, post := s[..k], s[k + 1..];
    y := ReplaceChar(post, Backslash, "\\\\");
    assert s == pre + ([Apostrophe] + post);
    ReplaceCharAppend(pre, [Apostrophe] + post, Backslash, "\\\\");
    ReplaceCharAppend([Apostrophe], post, Backslash, "\\\\");
    assert ReplaceChar([Apostrophe], Backslash, "\\\\") == [Apostrophe];
  }

  /** With only the backslash replacement, the first apostrophe of the raw
      string is left bare and closes the literal early, so the body no longer
      denotes the raw string. */
  lemma UnescapedApostropheClosesEarly(s: string)
    requires Apostrophe in s
    ensures Decode(Spark, ReplaceChar(s, Backslash, "\\\\")) == None
  {
    var pre := s[..FirstIndex(s, Apostrophe)];
    var q := ReplaceChar(pre, Backslash, "\\\\");
    var y := BackslashStepSplit(s);
    var u := [Apostrophe] + (y + [Apostrophe]);
    assert q == EscapeSparkPerChar(pre) by {
      ReplaceCharKeepsAbsent(pre, Backslash, "\\\\", Apostrophe);
      EscapeSparkIsPerChar(pre);
    }
    Reassociate(q, [Apostrophe] + y, [Apostrophe]);
    Reassociate([Apostrophe], y, [Apostrophe]);
    ScanSparkEscaped(pre, u);
    assert ScanSpark(u) == Some(([], y + [Apostrophe]));
  }

  /** Characters that are neither apostrophes nor backslashes pass through
      Spark's lexer unchanged. */
  lemma {:induction false} ScanSparkPlain(u: string, t: string)
    requires Apostrophe !in u && Backslash !in u
    ensures ScanSpark(u + t) == Prepend(u, ScanSpark(t))
  {
    if u == [] {
      assert u + t == t;
      match ScanSpark(t)
      case None =>
      case Some((v, rest)) => assert u + v == v;
    } else {
      assert u + t == [u[0]] + (u[1..] + t);
      ScanSparkOrdinary(u[0], u[1..] + t);
      ScanSparkPlain(u[1..], t);
      PrependTwice([u[0]], u[1..], ScanSpark(t));
      assert [u[0]] + u[1..] == u;
    }
  }

  /** Without doubling, the backslash of "with\\backslash" would start the
      escape `\b` and Spark would read a backspace character. */
  lemma UndoubledBackslashIsMisread()
    ensures Decode(Spark, "with\\backslash") == Some("with" + [8 as char] + "ackslash")
  {
    var u := "ackslash" + [Apostrophe];
    var t := "with\\backslash" + [Apostrophe];
    assert ScanSpark(u) == Some(("ackslash", [])) by {
      assert ScanSpark([Apostrophe]) == Some(([], []));
      ScanSparkPlain("ackslash", [Apostrophe]);
      assert "ackslash" + [] == "ackslash";
    }
    assert ScanSpark([Backslash, 'b'] + u) == Some(([8 as char] + "ackslash", [])) by {
      assert ([Backslash, 'b'] + u)[2..] == u;
    }
    assert ScanSpark(t) == Some(("with" + ([8 as char] + "ackslash"), [])) by {
      assert t == "with" + ([Backslash, 'b'] + u);
      ScanSparkPlain("with", [Backslash, 'b'] + u);
    }
    assert "with" + ([8 as char] + "ackslash") == "with" + [8 as char] + "ackslash";
  }
  /** Spark keeps the backslash of `\%` and `\_`, so a raw string made of such
      a pair would decode as itself even without the doubling: the doubling is
      needed for some strings, not for all. */
  lemma WildcardEscapesKeepBackslash()
    ensures Decode(Spark, "\\%") == Some("\\%")
    ensures Decode(Spark, "\\_") == Some("\\_")
  {
    assert ScanSpark([Apostrophe]) == Some(([], []));
    assert "\\%" + [] == "\\%" && "\\_" + [] == "\\_";
    var t := "\\%" + [Apostrophe];
    assert t[0] == Backslash && t[1] == '%' && t[2..] == [Apostrophe];
    assert SparkEscapedChar('%') == Some("\\%");
    assert ScanSpark(t) == Some(("\\%", []));
    var w := "\\_" + [Apostrophe];
    assert w[0] == Backslash && w[1] == '_' && w[2..] == [Apostrophe];
    assert SparkEscapedChar('_') == Some("\\_");
    assert ScanSpark(w) == Some(("\\_", []));
  }

}

=== FILE: partition_values.dfy ===
/** The partition-value fixtures of the compatibility tests: a corpus of
    awkward strings, the `VALUES` lists that insert them through each engine,
    and the rows the tests expect to read back from either engine.

    Each inserted tuple is `(i, '<escaped value i>')`, the tuples joined by
    ", "; each expected row is `(i, value i)` with the index cast to a 32-bit
    int. The reader `ParseValues` models how an engine reads such a list back
    into rows, using the dialect's literal lexer. */
module PartitionValues {
  import opened Wrappers
  import opened Literals

  /** `SPECIAL_CHARACTER_VALUES`, in order. */
  const SpecialCharacterValues: seq<string> := [
    "with-hyphen",
    "with.dot",
    "with:colon",
    "with/slash",
    "with\\\\backslashes",
    "with\\backslash",
    "with=equal",
    "with?question",
    "with!exclamation",
    "with%percent",
    "with%%percents",
    "with$dollar",
    "with#hash",
    "with*star",
    "with=equals",
    "with\"quote",
    "with'apostrophe",
    "with space",
    " with space prefix",
    "with space suffix ",
    "with\U{20AC}euro",
    "with non-ascii \U{105}\U{119}\U{142}\U{F3}\U{15B}\U{107} \U{398} \U{3A6} \U{394}",
    "with\U{1F468}\U{200D}\U{1F3ED}combining character",
    " \U{1F468}\U{200D}\U{1F3ED}",
    "\U{1F468}\U{200D}\U{1F3ED} "
  ]

  /** A row of the test table: the `id` column and the `part_col` partition
      column. */
  datatype PartitionRow = PartitionRow(id: int, partCol: string)

  // ---------------------------------------------------------------------------
  // Decimal numerals
  // ---------------------------------------------------------------------------

  predicate IsDigit(c: char)
  {
    '0' <= c <= '9'
  }

  predicate AllDigits(s: string)
  {
    forall i :: 0 <= i < |s| ==> IsDigit(s[i])
  }

  function DigitChar(d: nat): char
    requires d < 10
  {
    ('0' as int + d) as char
  }

  function DigitValue(c: char): nat
    requires IsDigit(c)
  {
    c as int - '0' as int
  }

  /** Java's `%d` of a non-negative number: its digits, with no leading zero
      except in `0` itself. */
  function Decimal(n: nat): (r: string)
    ensures |r| >= 1 && AllDigits(r)
    ensures r[0] == '0' <==> n == 0
  {
    if n < 10 then [DigitChar(n)] else Decimal(n / 10) + [DigitChar(n % 10)]
  }

  /** The number a string of decimal digits denotes. */
  function DigitsValue(ds: string): nat
    requires AllDigits(ds)
  {
    if ds == [] then 0 else DigitsValue(ds[..|ds| - 1]) * 10 + DigitValue(ds[|ds| - 1])
  }

  lemma {:induction false} DecimalRoundTrip(n: nat)
    ensures DigitsValue(Decimal(n)) == n
  {
    if n >= 10 {
      var r := Decimal(n);
      assert r[..|r| - 1] == Decimal(n / 10);
      DecimalRoundTrip(n / 10);
    }
  }

  /** Length of the longest prefix of `t` made of digits. */
  function LeadingDigits(t: string): (k: nat)
    ensures k <= |t|
    ensures AllDigits(t[..k])
    ensures k < |t| ==> !IsDigit(t[k])
  {
    if t == [] || !IsDigit(t[0]) then 0
    else
      var k := 1 + LeadingDigits(t[1..]);
      assert t[..k] == [t[0]] + t[1..][..k - 1];
      k
  }

  // ---------------------------------------------------------------------------
  // Rendering the VALUES lists
  // ---------------------------------------------------------------------------

  /** `format("(%d, '%s')", index, body)`. */
  function RenderTuple(index: nat, body: string): string
  {
    "(" + Decimal(index) + ", '" + body + "')"
  }

  /** `Collectors.joining(", ")`. */
  function Join(parts: seq<string>): string
  {
    if |parts| == 0 then ""
    else if |parts| == 1 then parts[0]
    else parts[0] + ", " + Join(parts[1..])
  }

  /** The tuples `mapWithIndex` produces for `values`, counting from `first`:
      the tuple for the value at position `i` carries index `first + i` and the
      value escaped for dialect `d`. */
  function RenderedTuples(d: Dialect, values: seq<string>, first: nat): (r: seq<string>)
    ensures |r| == |values|
    ensures forall i :: 0 <= i < |values| ==> r[i] == RenderTuple(first + i, Escape(d, values[i]))
  {
    if values == [] then []
    else [RenderTuple(first, Escape(d, values[0]))] + RenderedTuples(d, values[1..], first + 1)
  }

  /** `TRINO_INSERTED_PARTITION_VALUES` and `SPARK_INSERTED_PARTITION_VALUES`
      for an arbitrary list of values. What the tests insert through either
      engine reads back as exactly what they expect to select, `(i, value i)`
      for every position `i`, as long as every index fits in a 32-bit int. */
  function InsertedPartitionValues(d: Dialect, values: seq<string>): (r: string)
    ensures 1 <= |values| <= 0x8000_0000 ==> ParseValues(d, r) == Some(ExpectedRows(values, 0))
  {
    var r := Join(RenderedTuples(d, values, 0));
    assert 1 <= |values| <= 0x8000_0000 ==> ParseValues(d, r) == Some(ExpectedRows(values, 0)) by {
      if 1 <= |values| <= 0x8000_0000 {
        ParseRenderedTuples(d, values, 0);
      }
    }
    r
  }

  /** Java's `(int)` cast of a `long`: the low 32 bits, read as two's
      complement. */
  function Int32Cast(x: int): (r: int)
    ensures -0x8000_0000 <= r < 0x8000_0000
    ensures (r - x) % 0x1_0000_0000 == 0
  {
    (x + 0x8000_0000) % 0x1_0000_0000 - 0x8000_0000
  }

  /** The rows `mapWithIndex` produces for `values`, counting from `first`. */
  function ExpectedRows(values: seq<string>, first: nat): (r: seq<PartitionRow>)
    ensures |r| == |values|
    ensures forall i :: 0 <= i < |values| ==> r[i] == PartitionRow(Int32Cast(first + i), values[i])
  {
    if values == [] then []
    else [PartitionRow(Int32Cast(first), values[0])] + ExpectedRows(values[1..], first + 1)
  }

  /** `EXPECTED_PARTITION_VALUES`: one row per corpus value, holding its
      position and the raw value. */
  function ExpectedPartitionValues(): (r: seq<PartitionRow>)
    ensures |r| == |SpecialCharacterValues| == 25
    ensures forall i {:trigger r[i]} :: 0 <= i < |r| ==> r[i] == PartitionRow(i, SpecialCharacterValues[i])
  {
    var r := ExpectedRows(SpecialCharacterValues, 0);
    ExpectedRowsUncast(SpecialCharacterValues, 0);
    assert forall i {:trigger r[i]} :: 0 <= i < |r| ==> r[i] == PartitionRow(0 + i, SpecialCharacterValues[i]);
    r
  }

  /** While every index fits in an int, the cast leaves the indices alone. */
  lemma ExpectedRowsUncast(values: seq<string>, first: nat)
    requires first + |values| <= 0x8000_0000
    ensures forall i :: 0 <= i < |values| ==> ExpectedRows(values, first)[i] == PartitionRow(first + i, values[i])
  {
  }

  // ---------------------------------------------------------------------------
  // Reading the VALUES lists back
  // ---------------------------------------------------------------------------

  /** Reads one tuple `(<digits>, '<literal body>')` from the front of `t`,
      yielding the row and the text after the closing parenthesis. */
  function ParseTuple(d: Dialect, t: string): (r: Option<(PartitionRow, string)>)
    ensures r.Some? ==> |r.value.1| < |t|
  {
    if t == [] || t[0] != '(' then None
    else
      var n := LeadingDigits(t[1..]);
      var after := t[1 + n..];
      if n == 0 || |after| < 3 || after[..3] != ", '" then None
      else FinishTuple(DigitsValue(t[1..][..n]), Scan(d, after[3..]))
  }

  /** The end of a tuple: the literal the lexer read must be followed by `)`. */
  function FinishTuple(index: int, scanned: Option<(string, string)>): (r: Option<(PartitionRow, string)>)
    ensures r.Some? ==> scanned.Some? && |r.value.1| < |scanned.value.1|
  {
    match scanned
    case None => None
    case Some((v, rest)) =>
      if rest == [] || rest[0] != ')' then None else Some((PartitionRow(index, v), rest[1..]))
  }

  /** Reads a non-empty list of tuples separated by ", ". A list that reads
      starts with a parenthesis and has no more rows than characters. */
  function ParseValues(d: Dialect, t: string): (r: Option<seq<PartitionRow>>)
    ensures r.Some? ==> 1 <= |r.value| <= |t| && t[0] == '('
    decreases |t|
  {
    match ParseTuple(d, t)
    case None => None
    case Some((row, rest)) =>
      if rest == [] then Some([row])
      else if |rest| < 2 || rest[..2] != ", " then None
      else
        match ParseValues(d, rest[2..])
        case None => None
        case Some(rows) => Some([row] + rows)
  }

  /** The leading digits of a digit string followed by a non-digit are
      exactly that digit string. */
  lemma {:induction false} LeadingDigitsOfNumeral(ds: string, rest: string)
    requires AllDigits(ds)
    requires rest == [] || !IsDigit(rest[0])
    ensures LeadingDigits(ds + rest) == |ds|
  {
    if ds == [] {
      assert ds + rest == rest;
    } else {
      assert (ds + rest)[0] == ds[0];
      assert (ds + rest)[1..] == ds[1..] + rest;
      LeadingDigitsOfNumeral(ds[1..], rest);
    }
  }

  /** The pieces `ParseTuple` cuts from text of the shape `(<digits>, '...`. */
  lemma TuplePieces(ds: string, x: string)
    requires |ds| >= 1 && AllDigits(ds)
    ensures var t := "(" + ds + ", '" + x;
      && t[0] == '('
      && LeadingDigits(t[1..]) == |ds|
      && t[1..][..|ds|] == ds
      && t[1 + |ds|..][..3] == ", '"
      && t[1 + |ds|..][3..] == x
  {
    var t := "(" + ds + ", '" + x;
    var tail := ", '" + x;
    assert t[1..] == ds + tail;
    LeadingDigitsOfNumeral(ds, tail);
    assert t[1 + |ds|..] == tail;
  }

  /** `ParseTuple` on text of the shape `(<digits>, '<literal>)...`. */
  lemma ParseTupleShape(d: Dialect, ds: string, x: string, v: string, rest: string)
    requires |ds| >= 1 && AllDigits(ds)
    requires Scan(d, x) == Some((v, ")" + rest))
    ensures ParseTuple(d, "(" + ds + ", '" + x) == Some((PartitionRow(DigitsValue(ds), v), rest))
  {
    var t := "(" + ds + ", '" + x;
    TuplePieces(ds, x);
    assert ParseTuple(d, t) == FinishTuple(DigitsValue(ds), Scan(d, x));
    assert (")" + rest)[0] == ')' && (")" + rest)[1..] == rest;
  }

  /** A rendered tuple is read back as the row (index, raw value), whatever
      text follows it. */
  lemma ParseRenderedTuple(d: Dialect, index: nat, v: string, rest: string)
    ensures ParseTuple(d, RenderTuple(index, Escape(d, v)) + rest) == Some((PartitionRow(index, v), rest))
  {
    var ds := Decimal(index);
    var e := Escape(d, v);
    var x := e + [Apostrophe] + (")" + rest);
    assert RenderTuple(index, e) + rest == "(" + ds + ", '" + x;
    LiteralRoundTrip(d, v, ")" + rest);
    ParseTupleShape(d, ds, x, v, rest);
    DecimalRoundTrip(index);
  }

  lemma JoinCons(p: string, parts: seq<string>)
    requires |parts| >= 1
    ensures Join([p] + parts) == p + (", " + Join(parts))
  {
    assert ([p] + parts)[1..] == parts;
    var j := Join(parts);
    assert p + ", " + j == p + (", " + j);
  }

  /** `ParseValues` on a last tuple. */
  lemma ParseValuesLast(d: Dialect, t: string, row: PartitionRow)
    requires ParseTuple(d, t) == Some((row, []))
    ensures ParseValues(d, t) == Some([row])
  {
  }

  /** `ParseValues` on a tuple followed by `", "` and further tuples. */
  lemma ParseValuesNext(d: Dialect, t: string, row: PartitionRow, more: string, rows: seq<PartitionRow>)
    requires ParseTuple(d, t) == Some((row, ", " + more))
    requires ParseValues(d, more) == Some(rows)
    ensures ParseValues(d, t) == Some([row] + rows)
  {
    assert (", " + more)[..2] == ", " && (", " + more)[2..] == more;
  }

  /** The expected rows start with the row of the first value, whose index
      the `(int)` cast leaves alone. */
  lemma ExpectedRowsCons(values: seq<string>, first: nat)
    requires 1 <= |values| && first < 0x8000_0000
    ensures ExpectedRows(values, first) == [PartitionRow(first, values[0])] + ExpectedRows(values[1..], first + 1)
  {
    assert Int32Cast(first) == first;
  }

  /** The first of at least two rendered tuples, cut off from the rest: the
      tuple reads as the first expected row and leaves `", "` and the others. */
  lemma SplitFirstTuple(d: Dialect, values: seq<string>, first: nat)
    returns (tuple: string, row: PartitionRow, more: string)
    requires 2 <= |values| && first < 0x8000_0000
    ensures Join(RenderedTuples(d, values, first)) == tuple + (", " + more)
    ensures more == Join(RenderedTuples(d, values[1..], first + 1))
    ensures ParseTuple(d, tuple + (", " + more)) == Some((row, ", " + more))
    ensures ExpectedRows(values, first) == [row] + ExpectedRows(values[1..], first + 1)
  {
    tuple := RenderTuple(first, Escape(d, values[0]));
    row := PartitionRow(first, values[0]);
    var tuples := RenderedTuples(d, values[1..], first + 1);
    more := Join(tuples);
    assert RenderedTuples(d, values, first) == [tuple] + tuples;
    JoinCons(tuple, tuples);
    ExpectedRowsCons(values, first);
    ParseRenderedTuple(d, first, values[0], ", " + more);
  }

  /** A single rendered tuple, which makes up the whole list. */
  lemma SplitLastTuple(d: Dialect, values: seq<string>, first: nat)
    returns (tuple: string, row: PartitionRow)
    requires |values| == 1 && first < 0x8000_0000
    ensures Join(RenderedTuples(d, values, first)) == tuple
    ensures ParseTuple(d, tuple) == Some((row, []))
    ensures ExpectedRows(values, first) == [row]
  {
    tuple := RenderTuple(first, Escape(d, values[0]));
    row := PartitionRow(first, values[0]);
    ExpectedRowsCons(values, first);
    ParseRenderedTuple(d, first, values[0], []);
    assert tuple + [] == tuple;
  }

  /** The joined tuples for `values`, counting from `first`, are read back as
      the expected rows, as long as every index fits in a 32-bit int. */
  lemma {:induction false} ParseRenderedTuples(d: Dialect, values: seq<string>, first: nat)
    requires 1 <= |values| && first + |values| <= 0x8000_0000
    ensures ParseValues(d, Join(RenderedTuples(d, values, first))) == Some(ExpectedRows(values, first))
  {
    if |values| == 1 {
      var tuple, row := SplitLastTuple(d, values, first);
      ParseValuesLast(d, tuple, row);
    } else {
      var tuple, row, more := SplitFirstTuple(d, values, first);
      ParseRenderedTuples(d, values[1..], first + 1);
      ParseValuesNext(d, tuple + (", " + more), row, more, ExpectedRows(values[1..], first + 1));
    }
  }

  /** The same for the corpus itself: 25 tuples, read back through either
      engine as `EXPECTED_PARTITION_VALUES`. */
  lemma CorpusReadBack(d: Dialect)
    ensures |ExpectedPartitionValues()| == 25
    ensures ParseValues(d, InsertedPartitionValues(d, SpecialCharacterValues)) == Some(ExpectedPartitionValues())
  {
    assert |SpecialCharacterValues| == 25;
  }

  // ---------------------------------------------------------------------------
  // The equality predicates of assertSelectsOnSpecialCharacters
  // ---------------------------------------------------------------------------

  /** Number of rows whose partition column is `value`: at most all of them,
      and none exactly when no row has that value. */
  function CountMatching(rows: seq<PartitionRow>, value: string): (n: nat)
    ensures n <= |rows|
    ensures n == 0 <==> forall i :: 0 <= i < |rows| ==> rows[i].partCol != value
  {
    if rows == [] then 0
    else (if rows[0].partCol == value then 1 else 0) + CountMatching(rows[1..], value)
  }

  /** `SELECT count(*) ... WHERE part_col = '<body>'` in dialect `d`: `None`
      when the literal does not lex. */
  function SelectCount(d: Dialect, rows: seq<PartitionRow>, body: string): (r: Option<nat>)
    ensures r.Some? <==> Decode(d, body).Some?
    ensures r.Some? ==> r.value <= |rows|
    ensures r.Some? ==> (r.value == 0 <==> forall i :: 0 <= i < |rows| ==> rows[i].partCol != Decode(d, body).value)
  {
    match Decode(d, body)
    case None => None
    case Some(v) => Some(CountMatching(rows, v))
  }

  predicate Distinct(values: seq<string>)
  {
    forall i, j :: 0 <= i < j < |values| ==> values[i] != values[j]
  }

  lemma {:induction false} CountMatchingExpected(values: seq<string>, first: nat, v: string)
    ensures CountMatching(ExpectedRows(values, first), v) == multiset(values)[v]
  {
    if values != [] {
      assert values == [values[0]] + values[1..];
      var rows := ExpectedRows(values, first);
      assert rows[1..] == ExpectedRows(values[1..], first + 1);
      CountMatchingExpected(values[1..], first + 1, v);
    }
  }

  lemma {:induction false} DistinctCount(values: seq<string>, i: nat)
    requires Distinct(values) && i < |values|
    ensures multiset(values)[values[i]] == 1
  {
    assert values == [values[0]] + values[1..];
    if i == 0 {
      assert values[0] !in values[1..];
    } else {
      assert Distinct(values[1..]);
      assert values[1..][i - 1] == values[i];
      DistinctCount(values[1..], i - 1);
    }
  }

  /** For distinct values, the predicate built from each escaped value matches
      exactly one expected row, in either engine. */
  lemma PredicateMatchesOneRow(d: Dialect, values: seq<string>, i: nat)
    requires Distinct(values) && i < |values|
    ensures SelectCount(d, ExpectedRows(values, 0), Escape(d, values[i])) == Some(1)
  {
    DecodeRoundTrip(d, values[i]);
    CountMatchingExpected(values, 0, values[i]);
    DistinctCount(values, i);
  }

  /** The corpus has no repeated value, so each of its predicates matches
      exactly one row. */
  lemma CorpusPredicatesMatchOneRow(d: Dialect, i: nat)
    requires i < |SpecialCharacterValues|
    ensures SelectCount(d, ExpectedPartitionValues(), Escape(d, SpecialCharacterValues[i])) == Some(1)
  {
    CorpusDistinct();
    PredicateMatchesOneRow(d, SpecialCharacterValues, i);
  }

  /** Two lists without repeats and without a common value concatenate to a
      list without repeats. */
  lemma DistinctConcat(a: seq<string>, b: seq<string>)
    requires Distinct(a) && Distinct(b)
    requires forall i, j :: 0 <= i < |a| && 0 <= j < |b| ==> a[i] != b[j]
    ensures Distinct(a + b)
  {
    forall i, j | 0 <= i < j < |a + b|
      ensures (a + b)[i] != (a + b)[j]
    {
      if i < |a| <= j {
        assert (a + b)[j] == b[j - |a|];
      }
    }
  }

  /** The first twelve values of the corpus are pairwise different. */
  lemma CorpusFirstHalfDistinct()
    ensures Distinct(SpecialCharacterValues[..12])
  {
  }

  /** The last thirteen values of the corpus are pairwise different. */
  lemma CorpusSecondHalfDistinct()
    ensures Distinct(SpecialCharacterValues[12..])
  {
  }

  /** No value of the first twelve reappears among the last thirteen. */
  lemma CorpusHalvesDisjoint()
    ensures forall i, j :: 0 <= i < 12 && 0 <= j < 13 ==> SpecialCharacterValues[..12][i] != SpecialCharacterValues[12..][j]
  {
  }

  /** No value of the corpus is repeated. */
  lemma CorpusDistinct()
    ensures Distinct(SpecialCharacterValues)
  {
    var s := SpecialCharacterValues;
    CorpusFirstHalfDistinct();
    CorpusSecondHalfDistinct();
    CorpusHalvesDisjoint();
    DistinctConcat(s[..12], s[12..]);
    assert s == s[..12] + s[12..];
  }
}

=== FILE: subscripts.dfy ===
/** Element access in nested values, as the composite-type tests query it.

    Spark subscripts arrays from 0 and Trino from 1; both look maps up by key
    and structs by field name. The tests write every Spark query with array
    subscripts one lower than the matching Trino query. `ToTrinoPath` is that
    translation, and `PathTranslation` shows that a Spark path and its
    translation select the same element of any value. */
module Subscripts {
  import opened Wrappers
  import opened Literals

  /** The values the composite tests store: strings, integers, arrays, maps
      (entries in insertion order) and structs (fields in declaration order). */
  datatype Value =
    | Str(s: string)
    | Int(i: int)
    | Array(elements: seq<Value>)
    | Map(entries: seq<(Value, Value)>)
    | Struct(fields: seq<(string, Value)>)

  /** One step of an access path: `[k]` on an array, `['key']` on a map,
      `.name` on a struct. */
  datatype PathStep =
    | Element(index: int)
    | Key(key: Value)
    | Field(name: string)

  /** `arr[k]` in Spark: 0-based; `None` (SQL NULL) outside the array. */
  function SparkElementAt<T>(s: seq<T>, k: int): Option<T>
  {
    if 0 <= k < |s| then Some(s[k]) else None
  }

  /** `arr[k]` in Trino: 1-based; `None` (a query failure) outside the array.
      Subscript `k + 1` in Trino selects what subscript `k` selects in Spark. */
  function TrinoElementAt<T>(s: seq<T>, k: int): (r: Option<T>)
    ensures r == SparkElementAt(s, k - 1)
    ensures r.Some? ==> r.value == s[k - 1]
  {
    if 1 <= k <= |s| then Some(s[k - 1]) else None
  }

  /** The value paired with the first occurrence of `key`, `None` when the
      key does not occur: a map lookup by key, or a struct field by name. */
  function Lookup<K(==)>(entries: seq<(K, Value)>, key: K): (r: Option<Value>)
    ensures r.None? <==> forall i :: 0 <= i < |entries| ==> entries[i].0 != key
  {
    if entries == [] then None
    else if entries[0].0 == key then Some(entries[0].1)
    else Lookup(entries[1..], key)
  }

  /** `Lookup` finds the value of the first entry with the key. */
  lemma {:induction false} LookupFirst<K>(entries: seq<(K, Value)>, key: K)
    ensures Lookup(entries, key).Some? ==>
      exists i :: 0 <= i < |entries| && entries[i] == (key, Lookup(entries, key).value)
        && forall j :: 0 <= j < i ==> entries[j].0 != key
  {
    if entries != [] && entries[0].0 != key {
      LookupFirst(entries[1..], key);
      assert forall i :: 0 < i < |entries| ==> entries[i] == entries[1..][i - 1];
      if Lookup(entries, key).Some? {
        var i :| 0 <= i < |entries[1..]| && entries[1..][i] == (key, Lookup(entries, key).value)
          && forall j :: 0 <= j < i ==> entries[1..][j].0 != key;
        assert entries[i + 1] == (key, Lookup(entries, key).value);
      }
    } else if entries != [] {
      assert entries[0] == (key, Lookup(entries, key).value);
    }
  }

  /** One access step in dialect `d`. A subscript only applies to an array,
      a key only to a map and a field name only to a struct. */
  function Step(d: Dialect, v: Value, step: PathStep): (r: Option<Value>)
    ensures r.Some? && step.Element? ==> v.Array?
    ensures r.Some? && step.Key? ==> v.Map?
    ensures r.Some? && step.Field? ==> v.Struct?
  {
    match step
    case Element(k) =>
      if !v.Array? then None
      else if d == Spark then SparkElementAt(v.elements, k)
      else TrinoElementAt(v.elements, k)
    case Key(key) => if v.Map? then Lookup(v.entries, key) else None
    case Field(name) => if v.Struct? then Lookup(v.fields, name) else None
  }

  /** A whole access path in dialect `d`. */
  function Select(d: Dialect, v: Value, path: seq<PathStep>): Option<Value>
    decreases path
  {
    if path == [] then Some(v)
    else
      match Step(d, v, path[0])
      case None => None
      case Some(w) => Select(d, w, path[1..])
  }

  /** A path that is the concatenation of two paths selects by the first and
      then, from what it found, by the second; it fails where either fails. */
  lemma {:induction false} SelectAppend(d: Dialect, v: Value, p: seq<PathStep>, q: seq<PathStep>)
    ensures Select(d, v, p + q) == match Select(d, v, p)
      case None => None
      case Some(w) => Select(d, w, q)
    decreases p
  {
    if p == [] {
      assert p + q == q;
    } else {
      assert (p + q)[0] == p[0] && (p + q)[1..] == p[1..] + q;
      match Step(d, v, p[0])
      case None =>
      case Some(w) => SelectAppend(d, w, p[1..], q);
    }
  }

  /** Shifts an array subscript by `delta`; keys and fields are unchanged. */
  function ShiftStep(step: PathStep, delta: int): PathStep
  {
    match step
    case Element(k) => Element(k + delta)
    case _ => step
  }

  /** A Spark step and the step with its subscript one higher select the
      same element in Trino. */
  lemma StepTranslation(v: Value, step: PathStep)
    ensures Step(Spark, v, step) == Step(Trino, v, ShiftStep(step, 1))
  {
  }

  /** The Trino path for a Spark path: every array subscript one higher. */
  function ToTrinoPath(path: seq<PathStep>): (r: seq<PathStep>)
    ensures |r| == |path|
  {
    if path == [] then [] else [ShiftStep(path[0], 1)] + ToTrinoPath(path[1..])
  }

  /** The Spark path for a Trino path: every array subscript one lower. */
  function FromTrinoPath(path: seq<PathStep>): seq<PathStep>
  {
    if path == [] then [] else [ShiftStep(path[0], -1)] + FromTrinoPath(path[1..])
  }

  /** Lowering every subscript again undoes the translation. */
  lemma {:induction false} ToTrinoPathInverse(path: seq<PathStep>)
    ensures FromTrinoPath(ToTrinoPath(path)) == path
  {
    if path != [] {
      var r := ToTrinoPath(path);
      assert r[1..] == ToTrinoPath(path[1..]);
      ToTrinoPathInverse(path[1..]);
      assert ShiftStep(ShiftStep(path[0], 1), -1) == path[0];
    }
  }

  /** A Spark path and its Trino translation select the same element of any
      value, through any nesting of arrays, maps and structs. */
  lemma {:induction false} PathTranslation(v: Value, path: seq<PathStep>)
    ensures Select(Spark, v, path) == Select(Trino, v, ToTrinoPath(path))
    decreases path
  {
    if path != [] {
      var tp := ToTrinoPath(path);
      assert tp[0] == ShiftStep(path[0], 1) && tp[1..] == ToTrinoPath(path[1..]);
      StepTranslation(v, path[0]);
      match Step(Spark, v, path[0])
      case None =>
      case Some(w) => PathTranslation(w, path[1..]);
    }
  }

  // ---------------------------------------------------------------------------
  // The nested-data tests
  // ---------------------------------------------------------------------------

  function SStruct(name: string, n: int): Value
  {
    Struct([("sname", Str(name)), ("snumber", Int(n))])
  }

  function MStruct(name: string, n: int): Value
  {
    Struct([("mname", Str(name)), ("mnumber", Int(n))])
  }

  /** The row both nested-data tests insert, as a struct of its columns. */
  function NestedDocument(): Value
  {
    Struct([("doc_id", Str("Doc213")), ("nested_map", NestedMap()), ("nested_array", NestedArray()), ("nested_struct", NestedStruct())])
  }

  /** Column `nested_map`: key `s1` holds an array of two structs. */
  function NestedMap(): Value
  {
    Map([(Str("s1"), Array([SStruct("ASName1", 201), SStruct("ASName2", 202)]))])
  }

  /** Column `nested_array`: two maps, each holding an array of two structs. */
  function NestedArray(): Value
  {
    Array([
      Map([(Str("m1"), Array([MStruct("MAS1Name1", 301), MStruct("MAS1Name2", 302)]))]),
      Map([(Str("m2"), Array([MStruct("MAS2Name1", 401), MStruct("MAS2Name2", 402)]))])])
  }

  /** Column `nested_struct`: a name and an array shaped like `nested_array`. */
  function NestedStruct(): Value
  {
    Struct([
      ("name", Str("S1")),
      ("complicated", Array([
        Map([(Str("m1"), Array([MStruct("SAMA1Name1", 301), MStruct("SAMA1Name2", 302)]))]),
        Map([(Str("m2"), Array([MStruct("SAMA2Name1", 401), MStruct("SAMA2Name2", 402)]))])]))])
  }

  /** The seven columns the Spark queries of the nested-data tests select. */
  function SparkNestedPaths(): seq<seq<PathStep>>
  {
    [
      [Field("doc_id")],
      [Field("nested_map"), Key(Str("s1")), Element(1), Field("sname")],
      [Field("nested_map"), Key(Str("s1")), Element(0), Field("snumber")],
      [Field("nested_array"), Element(1), Key(Str("m2")), Element(0), Field("mname")],
      [Field("nested_array"), Element(0), Key(Str("m1")), Element(1), Field("mnumber")],
      [Field("nested_struct"), Field("complicated"), Element(0), Key(Str("m1")), Element(0), Field("mname")],
      [Field("nested_struct"), Field("complicated"), Element(1), Key(Str("m2")), Element(1), Field("mnumber")]
    ]
  }

  /** The seven columns the Trino queries of the nested-data tests select. */
  function TrinoNestedPaths(): seq<seq<PathStep>>
  {
    [
      [Field("doc_id")],
      [Field("nested_map"), Key(Str("s1")), Element(2), Field("sname")],
      [Field("nested_map"), Key(Str("s1")), Element(1), Field("snumber")],
      [Field("nested_array"), Element(2), Key(Str("m2")), Element(1), Field("mname")],
      [Field("nested_array"), Element(1), Key(Str("m1")), Element(2), Field("mnumber")],
      [Field("nested_struct"), Field("complicated"), Element(1), Key(Str("m1")), Element(1), Field("mname")],
      [Field("nested_struct"), Field("complicated"), Element(2), Key(Str("m2")), Element(2), Field("mnumber")]
    ]
  }

  /** Subscript `j` of the translation is step `j` shifted by one. */
  lemma {:induction false} ToTrinoPathAt(path: seq<PathStep>)
    ensures forall j :: 0 <= j < |path| ==> ToTrinoPath(path)[j] == ShiftStep(path[j], 1)
  {
    if path != [] {
      ToTrinoPathAt(path[1..]);
      assert forall j :: 0 < j < |path| ==> ToTrinoPath(path)[j] == ToTrinoPath(path[1..])[j - 1];
    }
  }

  /** A path whose steps are those of `p` shifted by one is `p`'s translation. */
  lemma ShiftedIsTranslation(p: seq<PathStep>, q: seq<PathStep>)
    requires |p| == |q| && forall j :: 0 <= j < |p| ==> q[j] == ShiftStep(p[j], 1)
    ensures ToTrinoPath(p) == q
  {
    ToTrinoPathAt(p);
  }

  /** Query `i` of the Trino side is the translation of query `i` of the
      Spark side. */
  lemma NestedQueryTranslated(i: nat)
    requires i < 7
    ensures ToTrinoPath(SparkNestedPaths()[i]) == TrinoNestedPaths()[i]
  {
    ShiftedIsTranslation(SparkNestedPaths()[i], TrinoNestedPaths()[i]);
  }

  /** The Trino queries are exactly the translations of the Spark queries, so
      on any stored value both engines select the same seven columns. */
  lemma NestedQueriesAgree(v: Value)
    ensures |SparkNestedPaths()| == |TrinoNestedPaths()| == 7
    ensures forall i :: 0 <= i < 7 ==> ToTrinoPath(SparkNestedPaths()[i]) == TrinoNestedPaths()[i]
    ensures forall i :: 0 <= i < 7 ==> Select(Spark, v, SparkNestedPaths()[i]) == Select(Trino, v, TrinoNestedPaths()[i])
  {
    forall i | 0 <= i < 7
      ensures ToTrinoPath(SparkNestedPaths()[i]) == TrinoNestedPaths()[i]
      ensures Select(Spark, v, SparkNestedPaths()[i]) == Select(Trino, v, TrinoNestedPaths()[i])
    {
      NestedQueryTranslated(i);
      PathTranslation(v, SparkNestedPaths()[i]);
    }
  }

  /** The row both nested-data tests expect from either engine. */
  function NestedExpectedRow(): seq<Value>
  {
    [Str("Doc213"), Str("ASName2"), Int(201), Str("MAS2Name1"), Int(302), Str("SAMA1Name1"), Int(402)]
  }

  /** Spark columns 1 and 2, through `nested_map`. */
  lemma NestedMapColumns()
    ensures Select(Spark, NestedDocument(), SparkNestedPaths()[1]) == Some(Str("ASName2"))
    ensures Select(Spark, NestedDocument(), SparkNestedPaths()[2]) == Some(Int(201))
  {
  }

  /** Spark column 3 through `nested_array`. */
  lemma NestedArrayColumn3()
    ensures Select(Spark, NestedDocument(), SparkNestedPaths()[3]) == Some(Str("MAS2Name1"))
  {
  }

  /** Spark column 4 through `nested_array`. */
  lemma NestedArrayColumn4()
    ensures Select(Spark, NestedDocument(), SparkNestedPaths()[4]) == Some(Int(302))
  {
  }

  /** Spark column 5 through `nested_struct`. */
  lemma NestedStructColumn5()
    ensures Select(Spark, NestedDocument(), SparkNestedPaths()[5]) == Some(Str("SAMA1Name1"))
  {
  }

  /** Spark column 6 through `nested_struct`. */
  lemma NestedStructColumn6()
    ensures Select(Spark, NestedDocument(), SparkNestedPaths()[6]) == Some(Int(402))
  {
  }

  /** Spark column 0, `doc_id`. */
  lemma NestedIdColumn()
    ensures Select(Spark, NestedDocument(), SparkNestedPaths()[0]) == Some(Str("Doc213"))
  {
  }

  /** Spark column `i` of the nested-data tests. */
  lemma NestedColumn(i: nat)
    requires i < 7
    ensures Select(Spark, NestedDocument(), SparkNestedPaths()[i]) == Some(NestedExpectedRow()[i])
  {
    if i == 0 {
      NestedIdColumn();
    } else if i <= 2 {
      NestedMapColumns();
    } else if i == 3 {
      NestedArrayColumn3();
    } else if i == 4 {
      NestedArrayColumn4();
    } else if i == 5 {
      NestedStructColumn5();
    } else {
      NestedStructColumn6();
    }
  }

  /** Both engines' queries read the expected row back from the stored one. */
  lemma NestedRowReadBack()
    ensures forall i :: 0 <= i < 7 ==> Select(Spark, NestedDocument(), SparkNestedPaths()[i]) == Some(NestedExpectedRow()[i])
    ensures forall i :: 0 <= i < 7 ==> Select(Trino, NestedDocument(), TrinoNestedPaths()[i]) == Some(NestedExpectedRow()[i])
  {
    NestedQueriesAgree(NestedDocument());
    forall i | 0 <= i < 7
      ensures Select(Spark, NestedDocument(), SparkNestedPaths()[i]) == Some(NestedExpectedRow()[i])
    {
      NestedColumn(i);
    }
  }

  // ---------------------------------------------------------------------------
  // The composite-type tests
  // ---------------------------------------------------------------------------

  /** The row both composite tests insert, as a struct of its columns. */
  function CompositeDocument(): Value
  {
    Struct([
      ("doc_id", Str("Doc213")),
      ("info", Map([(Str("age"), Int(28)), (Str("children"), Int(3))])),
      ("pets", Array([Str("Dog"), Str("Cat"), Str("Pig")])),
      ("user_info", Struct([("name", Str("Santa")), ("surname", Str("Claus")), ("age", Int(1000)), ("gender", Str("MALE"))]))
    ])
  }

  /** The four columns the Spark query of the composite tests selects. */
  function SparkCompositePaths(): seq<seq<PathStep>>
  {
    [[Field("doc_id")], [Field("info"), Key(Str("age"))], [Field("pets"), Element(1)], [Field("user_info"), Field("surname")]]
  }

  /** The four columns the Trino query of the composite tests selects. */
  function TrinoCompositePaths(): seq<seq<PathStep>>
  {
    [[Field("doc_id")], [Field("info"), Key(Str("age"))], [Field("pets"), Element(2)], [Field("user_info"), Field("surname")]]
  }

  /** The row both composite tests expect from either engine. */
  function CompositeExpectedRow(): seq<Value>
  {
    [Str("Doc213"), Int(28), Str("Cat"), Str("Claus")]
  }

  /** The Spark composite query reads the expected row back. */
  lemma CompositeSparkColumns()
    ensures forall i :: 0 <= i < 4 ==> Select(Spark, CompositeDocument(), SparkCompositePaths()[i]) == Some(CompositeExpectedRow()[i])
  {
  }

  /** The Trino composite query translates the Spark one, and both read the
      expected row back from the stored one. */
  lemma CompositeRowReadBack()
    ensures forall i :: 0 <= i < 4 ==> ToTrinoPath(SparkCompositePaths()[i]) == TrinoCompositePaths()[i]
    ensures forall i :: 0 <= i < 4 ==> Select(Spark, CompositeDocument(), SparkCompositePaths()[i]) == Some(CompositeExpectedRow()[i])
    ensures forall i :: 0 <= i < 4 ==> Select(Trino, CompositeDocument(), TrinoCompositePaths()[i]) == Some(CompositeExpectedRow()[i])
  {
    CompositeSparkColumns();
    forall i | 0 <= i < 4
      ensures ToTrinoPath(SparkCompositePaths()[i]) == TrinoCompositePaths()[i]
      ensures Select(Trino, CompositeDocument(), TrinoCompositePaths()[i]) == Some(CompositeExpectedRow()[i])
    {
      ShiftedIsTranslation(SparkCompositePaths()[i], TrinoCompositePaths()[i]);
      PathTranslation(CompositeDocument(), SparkCompositePaths()[i]);
    }
  }
}

=== FILE: test_matrix.dfy ===
/** The parameter matrix of the compatibility tests: which storage formats
    Trino can read, the two format data providers that split the formats on
    that predicate, and the provider that crosses the supported formats with
    the three ways Trino creates a table. */
module TestMatrix {

  /** `StorageFormat`, in declaration order. */
  datatype StorageFormat = Parquet | Orc | Avro

  /** `StorageFormat.values()`. */
  const StorageFormatValues: seq<StorageFormat> := [Parquet, Orc, Avro]

  /** Position of a format in `StorageFormat.values()`. */
  function Ordinal(f: StorageFormat): (k: nat)
    ensures k < |StorageFormatValues| && StorageFormatValues[k] == f
  {
    match f
    case Parquet => 0
    case Orc => 1
    case Avro => 2
  }

  /** `StorageFormat.isSupportedInTrino`: Avro files cannot be read yet, so
      Trino supports exactly Parquet and ORC. */
  predicate IsSupportedInTrino(f: StorageFormat): (b: bool)
    ensures b <==> f == Parquet || f == Orc
  {
    f != Avro
  }

  /** The formats of `xs` whose support in Trino is `supported`, in the order
      of `xs`: `Stream.of(xs).filter(...)`. */
  function FormatsWithSupport(xs: seq<StorageFormat>, supported: bool): (r: seq<StorageFormat>)
    ensures |r| <= |xs|
    ensures forall f :: f in r <==> f in xs && IsSupportedInTrino(f) == supported
  {
    if xs == [] then []
    else
      var rest := FormatsWithSupport(xs[1..], supported);
      assert forall f :: f in xs <==> f == xs[0] || f in xs[1..] by {
        assert xs == [xs[0]] + xs[1..];
      }
      if IsSupportedInTrino(xs[0]) == supported then [xs[0]] + rest else rest
  }

  /** Filtering keeps the relative order of the formats it keeps. */
  lemma {:induction false} FormatsWithSupportKeepsOrder(xs: seq<StorageFormat>, supported: bool)
    requires InEnumOrder(xs)
    ensures InEnumOrder(FormatsWithSupport(xs, supported))
  {
    if xs != [] {
      assert InEnumOrder(xs[1..]);
      FormatsWithSupportKeepsOrder(xs[1..], supported);
      assert forall y :: y in xs[1..] ==> Ordinal(xs[0]) < Ordinal(y);
    }
  }

  /** Strictly increasing in declaration order. */
  predicate InEnumOrder(xs: seq<StorageFormat>)
  {
    forall i, j :: 0 <= i < j < |xs| ==> Ordinal(xs[i]) < Ordinal(xs[j])
  }

  /** The `storageFormats` data provider: Parquet and ORC, in that order, and
      exactly the formats Trino supports. */
  function StorageFormats(): (r: seq<StorageFormat>)
    ensures r == [Parquet, Orc]
    ensures forall f :: f in r <==> IsSupportedInTrino(f)
  {
    var xs := StorageFormatValues;
    assert xs[1..][1..][1..] == [];
    assert FormatsWithSupport(xs[1..][1..], true) == [];
    FormatsWithSupport(xs, true)
  }

  /** The `unsupportedStorageFormats` data provider: Avro alone, exactly the
      format Trino does not support. */
  function UnsupportedStorageFormats(): (r: seq<StorageFormat>)
    ensures r == [Avro]
    ensures forall f :: f in r <==> !IsSupportedInTrino(f)
  {
    var xs := StorageFormatValues;
    assert xs[1..][1..][1..] == [];
    assert FormatsWithSupport(xs[1..][1..], false) == [Avro];
    FormatsWithSupport(xs, false)
  }

  /** Filtering on a predicate and on its negation splits a list: every element
      lands in exactly one of the two results. */
  lemma {:induction false} FormatsWithSupportPartition(xs: seq<StorageFormat>)
    ensures multiset(FormatsWithSupport(xs, true)) + multiset(FormatsWithSupport(xs, false)) == multiset(xs)
  {
    if xs != [] {
      assert xs == [xs[0]] + xs[1..];
      FormatsWithSupportPartition(xs[1..]);
    }
  }

  /** `StorageFormat.values()` lists each format at its ordinal. */
  lemma ValuesInEnumOrder()
    ensures InEnumOrder(StorageFormatValues)
  {
    forall i | 0 <= i < |StorageFormatValues|
      ensures Ordinal(StorageFormatValues[i]) == i
    {
    }
  }

  /** The two providers split `StorageFormat.values()` into the formats Trino
      supports and the rest, each in declaration order; Trino supports exactly
      the formats other than Avro. */
  lemma StorageFormatPartition()
    ensures multiset(StorageFormats()) + multiset(UnsupportedStorageFormats()) == multiset(StorageFormatValues)
    ensures forall f :: f in StorageFormats() <==> f != Avro
    ensures forall f :: f in UnsupportedStorageFormats() <==> f == Avro
    ensures InEnumOrder(StorageFormats()) && InEnumOrder(UnsupportedStorageFormats())
  {
    FormatsWithSupportPartition(StorageFormatValues);
    assert InEnumOrder(StorageFormats()) && InEnumOrder(UnsupportedStorageFormats()) by {
      ValuesInEnumOrder();
      FormatsWithSupportKeepsOrder(StorageFormatValues, true);
      FormatsWithSupportKeepsOrder(StorageFormatValues, false);
    }
  }

  // ---------------------------------------------------------------------------
  // Cross product with the create modes
  // ---------------------------------------------------------------------------

  /** `CreateMode`, in declaration order. */
  datatype CreateMode = CreateTableAndInsert | CreateTableAsSelect | CreateTableWithNoDataAndInsert

  /** `CreateMode.values()`. */
  const CreateModeValues: seq<CreateMode> := [CreateTableAndInsert, CreateTableAsSelect, CreateTableWithNoDataAndInsert]

  /** Each format followed by its three create modes, format by format. */
  function CrossWithCreateModes(fs: seq<StorageFormat>): (r: seq<(StorageFormat, CreateMode)>)
    ensures |r| == 3 * |fs|
    ensures forall p :: p in r ==> p.0 in fs
  {
    if fs == [] then []
    else
      var r := [(fs[0], CreateTableAndInsert), (fs[0], CreateTableAsSelect), (fs[0], CreateTableWithNoDataAndInsert)]
        + CrossWithCreateModes(fs[1..]);
      assert forall f :: f in fs[1..] ==> f in fs;
      r
  }

  /** `testSparkReadingTrinoDataDataProvider`: Parquet with the three create
      modes, then ORC with the three create modes. */
  function SparkReadingTrinoDataProvider(): (r: seq<(StorageFormat, CreateMode)>)
    ensures r == [
      (Parquet, CreateTableAndInsert), (Parquet, CreateTableAsSelect), (Parquet, CreateTableWithNoDataAndInsert),
      (Orc, CreateTableAndInsert), (Orc, CreateTableAsSelect), (Orc, CreateTableWithNoDataAndInsert)]
  {
    var fs := StorageFormats();
    assert fs[1..] == [Orc] && fs[1..][1..] == [];
    CrossWithCreateModes(fs)
  }

  /** Format-major order: entry `3 * i + k` pairs format `i` with create
      mode `k`. */
  lemma {:induction false} CrossIndexing(fs: seq<StorageFormat>, i: nat, k: nat)
    requires i < |fs| && k < 3
    ensures CrossWithCreateModes(fs)[3 * i + k] == (fs[i], CreateModeValues[k])
  {
    if i > 0 {
      CrossIndexing(fs[1..], i - 1, k);
      assert CrossWithCreateModes(fs)[3 * i + k] == CrossWithCreateModes(fs[1..])[3 * (i - 1) + k];
    }
  }

  /** The three pairs of one format contain each pair of that format once. */
  lemma HeadCount(g: StorageFormat, f: StorageFormat, m: CreateMode)
    ensures multiset([(g, CreateTableAndInsert), (g, CreateTableAsSelect), (g, CreateTableWithNoDataAndInsert)])[(f, m)]
         == if g == f then 1 else 0
  {
    var a, b, c := (g, CreateTableAndInsert), (g, CreateTableAsSelect), (g, CreateTableWithNoDataAndInsert);
    assert multiset([a, b, c]) == multiset{a} + multiset{b} + multiset{c};
  }

  /** Every pair of a format of `fs` with a create mode appears as often as the
      format appears in `fs`, and nothing else appears. */
  lemma {:induction false} CrossCounts(fs: seq<StorageFormat>, f: StorageFormat, m: CreateMode)
    ensures multiset(CrossWithCreateModes(fs))[(f, m)] == multiset(fs)[f]
  {
    if fs != [] {
      assert fs == [fs[0]] + fs[1..];
      var head := [(fs[0], CreateTableAndInsert), (fs[0], CreateTableAsSelect), (fs[0], CreateTableWithNoDataAndInsert)];
      assert CrossWithCreateModes(fs) == head + CrossWithCreateModes(fs[1..]);
      HeadCount(fs[0], f, m);
      CrossCounts(fs[1..], f, m);
    }
  }

  /** The provider yields 3 pairs per supported format, 6 in all; each
      supported format appears exactly once with each create mode, and no
      unsupported format appears. */
  lemma SparkReadingTrinoDataProviderContents()
    ensures |SparkReadingTrinoDataProvider()| == 3 * |StorageFormats()| == 6
    ensures forall f, m :: multiset(SparkReadingTrinoDataProvider())[(f, m)] == (if IsSupportedInTrino(f) then 1 else 0)
    ensures forall p :: p in SparkReadingTrinoDataProvider() ==> IsSupportedInTrino(p.0)
  {
    forall f, m
      ensures multiset(SparkReadingTrinoDataProvider())[(f, m)] == (if IsSupportedInTrino(f) then 1 else 0)
    {
      CrossCounts(StorageFormats(), f, m);
      SupportedFormatCount(f);
    }
  }

  /** `storageFormats` lists each supported format once and no other format. */
  lemma SupportedFormatCount(f: StorageFormat)
    ensures multiset(StorageFormats())[f] == if IsSupportedInTrino(f) then 1 else 0
  {
    assert multiset([Parquet, Orc]) == multiset{Parquet} + multiset{Orc};
  }
}

=== FILE: wrappers.dfy ===
/** Optional values, used wherever an engine yields nothing: a literal its lexer
    rejects, a subscript outside the array, a missing map key. */
module Wrappers {

  datatype Option<+T> = None | Some(value: T)
}
